=== FILE: README.md ===
# JavaSteam authentication core, modelled in Dafny

This project models the part of JavaSteam that logs a client on to Steam
with the `IAuthenticationService` protocol.

- **`SteamAuthentication`** starts an authentication session. It can use a
  QR challenge. It can also use a user name and an RSA-encrypted password:
  the ciphertext is Base64-encoded and its last character is dropped.
  It also generates access tokens from refresh tokens.
- **`AuthSession`** drives the started session to a result:
  - it sorts the allowed Steam Guard confirmations by a fixed preference;
  - it may ask the authenticator whether to wait for a device
    confirmation or fall back;
  - it asks for e-mail or device codes until one is accepted, flagging
    the previous one as wrong when the server says so; once set, the flag
    stays set;
  - it polls the session status, adopting the client id the server sends,
    until a refresh token arrives.
- **`ECurrencyCode`** maps currency constants to their numeric codes and back.
- **The proxy login sample** turns the payload segment of a JSON Web Token
  (base64url, unpadded) into padded standard Base64 before decoding it.

## Modules

- `basics.dfy`: `Option`, `byte`, the signed 64-bit `Long` range, and Kotlin's `isNullOrEmpty`.
- `base64.dfy`: Base64 encoding with the standard alphabet (section 4 of RFC 4648)
  and with the URL-safe alphabet (section 5), padded and unpadded. It also has a
  strict decoder, used as the encoder's partner.
- `protocol.dfy`: the protocol records the core reads and writes:
  - `EResult` values;
  - guard types;
  - allowed confirmations;
  - the poll request and response;
  - `AuthPollResult`.
- `confirmations.dfy`: the preference order and the stable sort of `sortConfirmations`.
- `auth_session.dfy`: the session state machine, which covers:
  - construction;
  - a single poll and its client-id hooks;
  - device-confirmation polling;
  - the code loop;
  - `pollingWaitForResult`.
- `steam_authentication.dfy`: request building for the four RPCs, with
  validation order and failure mapping. It also has the password encoding
  (`encodeToString(...).dropLast(1)`).
- `currency.dfy`: the 42 currency constants, `code()` and `from(int)`.
- `jwt_payload.dfy`: Java `String.split`, the `-`/`_` replacement and the
  `=` padding in `parseJsonWebToken`.

### How the environment is modelled

**The authenticator and the server.** They are given as finite traces of
answers (`Oracles`):
- whether the device confirmation is accepted;
- one `Attempt` per code turn, holding the code returned and the server's reply to its submission;
- one `PollResponse` per poll.

The source loops without bound. When a trace runs out while the source would
still be waiting, the model reports `Pending`. `PendingOnlyWhenTraceEnds`
proves that this happens only then.

**Side effects.** Each operation returns the events it caused:
- questions to the authenticator;
- codes submitted;
- polls sent;
- RPCs issued.

The lemmas use these events to state order and count.

**Session classes.** The two subclasses `CredentialsAuthSession` and
`QrAuthSession` are a tag, `SessionKind`. The `as?` downcast becomes a test of that tag.

## Model

| member | source | states |
|---|---|---|
| Confirmations.Rank | src/main/java/in/dragonbra/javasteam/steam/authentication/AuthSession.kt:224-237 | a listed guard type ranks at its index in the preference list; any other type ranks `Int.MAX_VALUE` |
| Confirmations.RankSeparatesListedTypes | src/main/java/in/dragonbra/javasteam/steam/authentication/AuthSession.kt:224-234 | a listed type shares its rank with no other type |
| Confirmations.Insert | src/main/java/in/dragonbra/javasteam/steam/authentication/AuthSession.kt:236-238 | inserting into a sorted list keeps it sorted, adds exactly the one element and keeps all others |
| Confirmations.SortConfirmations | src/main/java/in/dragonbra/javasteam/steam/authentication/AuthSession.kt:223-239 | the result is sorted by rank and is a permutation of the input |
| Confirmations.InsertWithKey | src/main/java/in/dragonbra/javasteam/steam/authentication/AuthSession.kt:236-238 | an insertion puts the new element before every element of equal rank |
| Confirmations.WithKeyCons | src/main/java/in/dragonbra/javasteam/steam/authentication/AuthSession.kt:236-238 | helper for SortIsStable: the confirmations of one rank in a list are its head, if it has that rank, followed by those of the rest |
| Confirmations.SortIsStable | src/main/java/in/dragonbra/javasteam/steam/authentication/AuthSession.kt:236-238 | `sortedBy` is stable: for every rank, the confirmations of that rank keep their input order |
| Confirmations.SortKeepsSortedList | src/main/java/in/dragonbra/javasteam/steam/authentication/AuthSession.kt:236-238 | a list already in preference order is returned unchanged |
| Confirmations.SortIsIdempotent | src/main/java/in/dragonbra/javasteam/steam/authentication/AuthSession.kt:43-45 | sorting an already sorted session list changes nothing |
| Confirmations.SortedHeadIsMinimal | src/main/java/in/dragonbra/javasteam/steam/authentication/AuthSession.kt:62 | the first confirmation after sorting comes from the input and has the least rank |
| Confirmations.PreferredDependsOnlyOnMultiset | src/main/java/in/dragonbra/javasteam/steam/authentication/AuthSession.kt:62 | for a listed type, the preferred type does not depend on the order in which the server sent the confirmations |
| Confirmations.OtherTypesCanTie | src/main/java/in/dragonbra/javasteam/steam/authentication/AuthSession.kt:237 | two unlisted types tie at `Int.MAX_VALUE`, so their input order decides which comes first |
| AuthSessions.NewSession | src/main/java/in/dragonbra/javasteam/steam/authentication/AuthSession.kt:43-45 | a new session holds its confirmations sorted, as a stable permutation of the given list, with every other field as given |
| AuthSessions.AdoptPositiveClientId | src/main/java/in/dragonbra/javasteam/steam/authentication/AuthSession.kt:199-201 | only the client id may change, and only to a positive value |
| AuthSessions.HandlePollResponse | src/main/java/in/dragonbra/javasteam/steam/authentication/AuthSession.kt:212-216 | the base hook changes only the client id, and only to a non-zero value |
| AuthSessions.PollAuthSessionStatus | src/main/java/in/dragonbra/javasteam/steam/authentication/AuthSession.kt:183-210 | non-OK results fail with the result and leave the session as it was; an OK poll adopts any non-zero new client id and completes exactly when a refresh token arrived, returning the response's tokens |
| AuthSessions.NegativeClientIdAdoptedByHook | src/main/java/in/dragonbra/javasteam/steam/authentication/AuthSession.kt:199-216 | a negative new client id is ignored by the `> 0` test and still adopted by the `!= 0` hook |
| AuthSessions.PollDeviceConfirmation | src/main/java/in/dragonbra/javasteam/steam/authentication/AuthSession.kt:170-175 | polls repeat while an OK answer lacks a refresh token, each with the client id the previous answer left; the loop ends with the first tokens or the first failure; the session it ends with holds the client id the last answer left (unchanged after a failed poll, and the original session when nothing was polled) |
| AuthSessions.WrongCodeBetweenFirst | src/main/java/in/dragonbra/javasteam/steam/authentication/AuthSession.kt:161-165 | helper for CodeLoop: after a turn, the wrong-code flag is set exactly when that turn or an earlier one was a wrong code |
| AuthSessions.CodeEventsCons | src/main/java/in/dragonbra/javasteam/steam/authentication/AuthSession.kt:139-166 | helper for CodeEvents: one turn's events ahead of the later turns' keep the counts, the recorded questions and the submitted codes |
| AuthSessions.FiltersAppend | src/main/java/in/dragonbra/javasteam/steam/authentication/AuthSession.kt:139-172 | helper for TurnEvents and CodeEvents: the recorded questions and submitted codes of concatenated event traces are those of the parts, concatenated |
| AuthSessions.CountsAppend | src/main/java/in/dragonbra/javasteam/steam/authentication/AuthSession.kt:139-172 | helper for the event-count lemmas (CodeEvents and CodeGuardPollsOnceAfterAcceptance): counting polls and authenticator questions distributes over concatenated event traces |
| AuthSessions.TurnEvents | src/main/java/in/dragonbra/javasteam/steam/authentication/AuthSession.kt:141-158 | each code turn asks the authenticator once, with that turn's request, and submits the code the authenticator returned exactly when it is non-empty |
| AuthSessions.CodeLoop | src/main/java/in/dragonbra/javasteam/steam/authentication/AuthSession.kt:136-166 | the k-th request carries a flag saying whether a wrong code came earlier; every non-final turn is an empty code or a rejection; the loop ends at the first accepted non-empty code |
| AuthSessions.CodeEvents | src/main/java/in/dragonbra/javasteam/steam/authentication/AuthSession.kt:139-166 | the code loop never polls; the questions recorded are exactly the loop's requests, in order, and the codes submitted are exactly the non-empty codes the authenticator returned in those turns, in order |
| AuthSessions.FlagIsNeverReset | src/main/java/in/dragonbra/javasteam/steam/authentication/AuthSession.kt:136-164 | once a request says the previous code was incorrect, every later request says so too |
| AuthSessions.FirstRequestIsUnflagged | src/main/java/in/dragonbra/javasteam/steam/authentication/AuthSession.kt:136 | the first request never claims a previous wrong code |
| AuthSessions.LoopExitsAtFirstAcceptedCode | src/main/java/in/dragonbra/javasteam/steam/authentication/AuthSession.kt:154-160 | after retries, the first accepted non-empty code ends the loop at exactly that turn |
| AuthSessions.HandleCodeAuth | src/main/java/in/dragonbra/javasteam/steam/authentication/AuthSession.kt:117-167 | a non-credentials session fails first; a missing authenticator fails next; the loop runs only for both code types and needs both checks to pass |
| AuthSessions.ExpectedWrongCodeResult | src/main/java/in/dragonbra/javasteam/steam/authentication/AuthSession.kt:130-134 | e-mail codes treat `InvalidLoginAuthCode` as a wrong code and device codes treat `TwoFactorCodeMismatch` as one |
| AuthSessions.PolledEvents | src/main/java/in/dragonbra/javasteam/steam/authentication/AuthSession.kt:184-189 | each poll request becomes exactly one poll event, in order |
| AuthSessions.PollOnce | src/main/java/in/dragonbra/javasteam/steam/authentication/AuthSession.kt:109-110 | the single poll is sent with the session's ids; a `null` answer is an "Authentication failed" error with result `Fail`; a non-`OK` answer fails with its result; an answer with a refresh token ends with those tokens; a failed poll leaves the session as it was, and an `OK` one leaves the client id the answer names, or the old one when it names none; the single poll asks for no code and submits none |
| AuthSessions.CodeGuardWait | src/main/java/in/dragonbra/javasteam/steam/authentication/AuthSession.kt:91-110 | the e-mail or device code branch changes only the client id and never asks the device-confirmation question; a code-handling failure is the call's failure with the session untouched, a loop still waiting is pending, and after an accepted code the first poll answer settles the call and leaves the session that poll leaves; the recorded questions are exactly the code loop's requests and the submitted codes exactly the non-empty codes of those turns; without a poll the session is untouched |
| AuthSessions.Dispatch | src/main/java/in/dragonbra/javasteam/steam/authentication/AuthSession.kt:88-113 | dispatching changes only the client id, and only through a poll; it never asks the device-confirmation question, and is pending only when a trace is used up; with no guard the first poll answer settles the call and sets the client id as that poll does; with a code guard a code-handling failure is the call's failure and an accepted code hands the outcome and the session to the first poll answer, while the recorded questions and submitted codes are exactly the code loop's; device confirmation records exactly the poll loop's requests (with their request id and rolling client id) and ends with its session and outcome; any other type fails as unsupported with nothing sent |
| AuthSessions.PollingWaitForResult | src/main/java/in/dragonbra/javasteam/steam/authentication/AuthSession.kt:61-114 | waiting changes only the client id, and only when something was polled, and keeps the confirmations sorted; what the client id becomes is the dispatched branch's, as `WaitDispatchesPreferred` relates |
| AuthSessions.NoConfirmationsFailsFirst | src/main/java/in/dragonbra/javasteam/steam/authentication/AuthSession.kt:62-67 | an empty list, or an `Unknown` first entry, fails before any question or poll |
| AuthSessions.DeviceConfirmationQuestion | src/main/java/in/dragonbra/javasteam/steam/authentication/AuthSession.kt:71-86 | the authenticator is asked about device confirmation exactly once, first, when it exists and device confirmation is preferred; otherwise it is never asked |
| AuthSessions.DeclinedWithoutFallbackFails | src/main/java/in/dragonbra/javasteam/steam/authentication/AuthSession.kt:75-81 | declining the only confirmation fails after the one question, with no code or poll |
| AuthSessions.Preferred | src/main/java/in/dragonbra/javasteam/steam/authentication/AuthSession.kt:61-84 | the chosen confirmation is one of the allowed ones: the first, unless the authenticator declined a leading device confirmation, in which case the second; in a sorted session no later entry ranks below it |
| AuthSessions.WaitDispatchesPreferred | src/main/java/in/dragonbra/javasteam/steam/authentication/AuthSession.kt:71-113 | apart from the initial question, waiting behaves as the dispatch of the preferred confirmation (the first one, or the second after a decline) |
| AuthSessions.FallbackToUnknownIsUnsupported | src/main/java/in/dragonbra/javasteam/steam/authentication/AuthSession.kt:83-106 | a fallback to an `Unknown` entry is reported as an unsupported type, not as "no confirmations" |
| AuthSessions.UnsupportedTypeFails | src/main/java/in/dragonbra/javasteam/steam/authentication/AuthSession.kt:104-106 | a preferred type outside None, the two codes and device confirmation fails with that type, and nothing is polled |
| AuthSessions.NoGuardIsOnePoll | src/main/java/in/dragonbra/javasteam/steam/authentication/AuthSession.kt:88-110 | with no guard there is exactly one poll; its failure, its `null` or its tokens decide the outcome |
| AuthSessions.CodeGuardPollsOnceAfterAcceptance | src/main/java/in/dragonbra/javasteam/steam/authentication/AuthSession.kt:91-110 | with an e-mail or device code, exactly one poll is sent, as the last event, when a code was accepted and the server answers; otherwise none; the authenticator is asked once per code turn; a code-handling failure is the call's failure, and after an accepted code the call ends as the single poll does |
| AuthSessions.DeviceConfirmationOnlyPolls | src/main/java/in/dragonbra/javasteam/steam/authentication/AuthSession.kt:98-112 | device confirmation asks nothing and only polls; it completes with the tokens of the first OK answer carrying a refresh token, after answers that carried none |
| AuthSessions.CodeGuardNeedsCredentialsSession | src/main/java/in/dragonbra/javasteam/steam/authentication/AuthSession.kt:118-122 | a code guard in a QR session fails before any question or poll |
| AuthSessions.CodeGuardNeedsAuthenticator | src/main/java/in/dragonbra/javasteam/steam/authentication/AuthSession.kt:124-128 | a code guard without an authenticator fails before any question or poll |
| AuthSessions.PendingOnlyWhenTraceEnds | src/main/java/in/dragonbra/javasteam/steam/authentication/AuthSession.kt:139-172 | the wait is unfinished only when every poll answer or every code turn has been used |
| AuthSessions.EmailCodeRetriedOnce | src/main/java/in/dragonbra/javasteam/steam/authentication/AuthSession.kt:136-166 | a wrong e-mail code followed by a good one asks twice (flag false, then true), submits both and completes after one poll |
| Base64.SymbolValue | src/main/java/in/dragonbra/javasteam/steam/authentication/SteamAuthentication.kt:174 | every alphabet symbol has a sextet that encodes back to it |
| Base64.SymbolRoundTrip | src/main/java/in/dragonbra/javasteam/steam/authentication/SteamAuthentication.kt:174 | decoding a symbol returns the sextet that produced it |
| Base64.PadIsNotSymbol | src/main/java/in/dragonbra/javasteam/steam/authentication/SteamAuthentication.kt:174 | `=` belongs to neither alphabet |
| Base64.Padding | src/main/java/in/dragonbra/javasteam/steam/authentication/SteamAuthentication.kt:174 | the padding is two, one or no `=` for a final group of one, two or three bytes |
| Base64.EncodeUnpadded | src/main/java/in/dragonbra/javasteam/steam/authentication/SteamAuthentication.kt:174 | unpadded output has four symbols per whole group and two or three for a final partial group |
| Base64.PaddedLength | src/main/java/in/dragonbra/javasteam/steam/authentication/SteamAuthentication.kt:174 | the unpadded symbols and the padding together fill exactly the four-character groups started by the input |
| Base64.Encode | src/main/java/in/dragonbra/javasteam/steam/authentication/SteamAuthentication.kt:174 | padded output is four characters per started group of three bytes |
| Base64.EncodeUrl | javasteam-samples/src/main/java/in/dragonbra/javasteamsamples/_007_loginwithproxy/SampleLoginWithProxy.java:204-207 | a base64url segment uses only URL-safe symbols and no padding |
| Base64.UnpaddedUsesAlphabet | src/main/java/in/dragonbra/javasteam/steam/authentication/SteamAuthentication.kt:174 | unpadded output uses only symbols of its alphabet |
| Base64.EncodeSplits | src/main/java/in/dragonbra/javasteam/steam/authentication/SteamAuthentication.kt:174 | encoding works group by group: the first three bytes give the first four characters |
| Base64.JoinSplitsTriple | src/main/java/in/dragonbra/javasteam/steam/authentication/SteamAuthentication.kt:174 | regrouping the four sextets of three bytes gives back the bytes |
| Base64.DecodeQuantumOfTriple | javasteam-samples/src/main/java/in/dragonbra/javasteamsamples/_007_loginwithproxy/SampleLoginWithProxy.java:213 | a full group of four symbols decodes to its three bytes |
| Base64.DecodeQuantumOfTail | javasteam-samples/src/main/java/in/dragonbra/javasteamsamples/_007_loginwithproxy/SampleLoginWithProxy.java:213 | a padded final group decodes to its one or two bytes |
| Base64.DecodeQuantumOfOne | javasteam-samples/src/main/java/in/dragonbra/javasteamsamples/_007_loginwithproxy/SampleLoginWithProxy.java:213 | a final group for one byte (two symbols and `==`) decodes to that byte |
| Base64.DecodeQuantumOfTwo | javasteam-samples/src/main/java/in/dragonbra/javasteamsamples/_007_loginwithproxy/SampleLoginWithProxy.java:213 | a final group for two bytes (three symbols and `=`) decodes to those bytes |
| Base64.DecodeCons | javasteam-samples/src/main/java/in/dragonbra/javasteamsamples/_007_loginwithproxy/SampleLoginWithProxy.java:213 | a full leading group decodes ahead of whatever the rest decodes to |
| Base64.DecodeEncodeTriple | javasteam-samples/src/main/java/in/dragonbra/javasteamsamples/_007_loginwithproxy/SampleLoginWithProxy.java:213 | three bytes survive an encode and decode round trip |
| Base64.DecodeEncodeStep | javasteam-samples/src/main/java/in/dragonbra/javasteamsamples/_007_loginwithproxy/SampleLoginWithProxy.java:213 | the round trip extends from the rest of a sequence to one more leading group |
| Base64.DecodeEncode | javasteam-samples/src/main/java/in/dragonbra/javasteamsamples/_007_loginwithproxy/SampleLoginWithProxy.java:213 | decoding the padded standard encoding of any bytes returns those bytes |
| SteamAuthentication.DropLast | src/main/java/in/dragonbra/javasteam/steam/authentication/SteamAuthentication.kt:176 | `dropLast(1)` keeps a prefix one character shorter, and keeps "" as it is |
| SteamAuthentication.EncodePassword | src/main/java/in/dragonbra/javasteam/steam/authentication/SteamAuthentication.kt:174-176 | the encrypted password is the standard encoding of the ciphertext less its final character |
| SteamAuthentication.EncodingEndsWithPadding | src/main/java/in/dragonbra/javasteam/steam/authentication/SteamAuthentication.kt:174-176 | when the ciphertext length is not a multiple of three, the full encoding ends in `=` |
| SteamAuthentication.PadRestoresPassword | src/main/java/in/dragonbra/javasteam/steam/authentication/SteamAuthentication.kt:174-176 | for such lengths, appending one `=` restores the standard encoding, which decodes to the ciphertext |
| SteamAuthentication.RsaTwoKiloBitPasswordKeepsOnePad | src/main/java/in/dragonbra/javasteam/steam/authentication/SteamAuthentication.kt:174-176 | a 256-byte ciphertext (2048-bit RSA) gives 343 characters that still end in one `=` |
| SteamAuthentication.WholeGroupsLoseASymbol | src/main/java/in/dragonbra/javasteam/steam/authentication/SteamAuthentication.kt:174-176 | for a ciphertext length that is a multiple of three, the dropped character is a data symbol, not a pad |
| SteamAuthentication.GetPasswordRSAPublicKeyCall | src/main/java/in/dragonbra/javasteam/steam/authentication/SteamAuthentication.kt:52-64 | one key request for the account; success exactly on `OK`, otherwise a failure carrying the result |
| SteamAuthentication.GenerateAccessTokenForAppCall | src/main/java/in/dragonbra/javasteam/steam/authentication/SteamAuthentication.kt:75-97 | the request carries the token and SteamID, with renewal type `Allow` exactly when renewal is allowed; non-`OK` fails with `IllegalArgumentException`, and success returns the response's access and refresh tokens |
| SteamAuthentication.BeginAuthSessionViaQr | src/main/java/in/dragonbra/javasteam/steam/authentication/SteamAuthentication.kt:107-138 | a disconnected client fails with no RPC; otherwise one QR request with the website id and device details; non-`OK` fails with the result; a connected client with an `OK` answer gets the session `NewSession` builds from the response: its challenge URL, ids and polling interval, and its confirmations in stable preference order |
| SteamAuthentication.CredentialsRequestOf | src/main/java/in/dragonbra/javasteam/steam/authentication/SteamAuthentication.kt:178-202 | persistence is `Persistent` exactly when asked; guard data is sent exactly when it is neither null nor empty |
| SteamAuthentication.BeginAuthSessionViaCredentials | src/main/java/in/dragonbra/javasteam/steam/authentication/SteamAuthentication.kt:147-216 | a missing user name or password fails first and a disconnected client next, both with no RPC; a valid, connected call always sends the key request first; a non-`OK` key result fails with that result after that one request; with an `OK` key the begin request is sent exactly when encryption succeeds, carrying the encrypted password, the key timestamp and the caller's guard data when non-empty, and a failed encryption ends with `EncryptionFailed` after the key request alone; a non-`OK` begin result fails with that result and an `OK` one gives the session `NewSession` builds from the response: its ids and polling interval, and its confirmations in stable preference order |
| CurrencyCodes.Code | src/main/java/in/dragonbra/javasteam/enums/ECurrencyCode.java:52-60 | every code lies in 0..42 and none is 33 |
| CurrencyCodes.From | src/main/java/in/dragonbra/javasteam/enums/ECurrencyCode.java:62-64 | `from` answers a constant of `values()` that has the code, and `null` exactly when no constant of `values()` has it |
| CurrencyCodes.FirstWithCode | src/main/java/in/dragonbra/javasteam/enums/ECurrencyCode.java:63 | the search finds nothing exactly when no constant has the code, and otherwise returns the first constant that has it |
| CurrencyCodes.CodeAtPosition | src/main/java/in/dragonbra/javasteam/enums/ECurrencyCode.java:7-48 | the i-th of the 42 declared constants has code i below 33 and i+1 from there on |
| CurrencyCodes.CodeAt | src/main/java/in/dragonbra/javasteam/enums/ECurrencyCode.java:7-48 | the code of the constant declared at a given position |
| CurrencyCodes.DeclarationOrderIsIncreasing | src/main/java/in/dragonbra/javasteam/enums/ECurrencyCode.java:7-48 | codes strictly increase in declaration order, from `Invalid`(0) to `Max`(42) |
| CurrencyCodes.EveryConstantIsListed | src/main/java/in/dragonbra/javasteam/enums/ECurrencyCode.java:63 | `values()` lists every constant |
| CurrencyCodes.PositionOf | src/main/java/in/dragonbra/javasteam/enums/ECurrencyCode.java:7-48 | every code in the table is held by the constant at its position |
| CurrencyCodes.ConstantIsAtItsPosition | src/main/java/in/dragonbra/javasteam/enums/ECurrencyCode.java:7-48 | each constant is declared at the position its code names |
| CurrencyCodes.CodesAreDistinct | src/main/java/in/dragonbra/javasteam/enums/ECurrencyCode.java:7-48 | no two constants share a code |
| CurrencyCodes.FromCode | src/main/java/in/dragonbra/javasteam/enums/ECurrencyCode.java:58-64 | `from(code())` returns the constant itself |
| CurrencyCodes.FromIsNullOutsideTable | src/main/java/in/dragonbra/javasteam/enums/ECurrencyCode.java:62-64 | `from` returns `null` exactly for negative codes, codes above 42, and the unused 33 |
| JwtPayload.SplitAll | javasteam-samples/src/main/java/in/dragonbra/javasteamsamples/_007_loginwithproxy/SampleLoginWithProxy.java:204 | splitting gives at least one piece, and no piece contains the separator |
| JwtPayload.JoinSplitAll | javasteam-samples/src/main/java/in/dragonbra/javasteamsamples/_007_loginwithproxy/SampleLoginWithProxy.java:204 | joining the pieces with the separator gives back the string |
| JwtPayload.SplitAfterPiece | javasteam-samples/src/main/java/in/dragonbra/javasteamsamples/_007_loginwithproxy/SampleLoginWithProxy.java:204 | a separator-free piece followed by the separator splits off as the first part |
| JwtPayload.SplitOfPiece | javasteam-samples/src/main/java/in/dragonbra/javasteamsamples/_007_loginwithproxy/SampleLoginWithProxy.java:204 | a string without the separator splits into itself |
| JwtPayload.DropTrailingEmpty | javasteam-samples/src/main/java/in/dragonbra/javasteamsamples/_007_loginwithproxy/SampleLoginWithProxy.java:204 | Java's `split` keeps a prefix of the pieces that does not end in an empty piece, and drops only empty pieces |
| JwtPayload.JavaSplit | javasteam-samples/src/main/java/in/dragonbra/javasteamsamples/_007_loginwithproxy/SampleLoginWithProxy.java:204 | `split` gives the string itself when it has no separator; otherwise a prefix of all pieces that ends in a non-empty piece, with only empty pieces dropped; no piece holds the separator |
| JwtPayload.PayloadSegment | javasteam-samples/src/main/java/in/dragonbra/javasteamsamples/_007_loginwithproxy/SampleLoginWithProxy.java:204-207 | `tokenComponents[1]` exists exactly when some piece after the first is non-empty, and is then the second piece |
| JwtPayload.PayloadOfCompactToken | javasteam-samples/src/main/java/in/dragonbra/javasteamsamples/_007_loginwithproxy/SampleLoginWithProxy.java:204-207 | of a three-part token, the payload segment is taken, unless both payload and signature are empty |
| JwtPayload.EmptyPayloadAndSignatureThrow | javasteam-samples/src/main/java/in/dragonbra/javasteamsamples/_007_loginwithproxy/SampleLoginWithProxy.java:204-207 | with empty payload and signature, Java drops both and indexing piece 1 fails |
| JwtPayload.Replace | javasteam-samples/src/main/java/in/dragonbra/javasteamsamples/_007_loginwithproxy/SampleLoginWithProxy.java:207 | `replace` keeps the length and changes exactly the occurrences of the character |
| JwtPayload.ReplaceOfConcat | javasteam-samples/src/main/java/in/dragonbra/javasteamsamples/_007_loginwithproxy/SampleLoginWithProxy.java:207 | `replace` of a concatenation is the concatenation of the replacements |
| JwtPayload.ToStandardAlphabet | javasteam-samples/src/main/java/in/dragonbra/javasteamsamples/_007_loginwithproxy/SampleLoginWithProxy.java:207 | after both replacements no `-` or `_` remains, and every other character is kept in place |
| JwtPayload.PadRun | javasteam-samples/src/main/java/in/dragonbra/javasteamsamples/_007_loginwithproxy/SampleLoginWithProxy.java:210 | a run of NUL characters with NUL replaced is a run of `=` of the same length |
| JwtPayload.PadToQuantum | javasteam-samples/src/main/java/in/dragonbra/javasteamsamples/_007_loginwithproxy/SampleLoginWithProxy.java:209-211 | padding appends at most three `=` to reach a multiple of four, and leaves a multiple of four unchanged |
| JwtPayload.NormalisePayload | javasteam-samples/src/main/java/in/dragonbra/javasteamsamples/_007_loginwithproxy/SampleLoginWithProxy.java:207-211 | the normalised payload has a length that is a multiple of four and contains no URL-safe symbol |
| JwtPayload.NormaliseIsIdempotent | javasteam-samples/src/main/java/in/dragonbra/javasteamsamples/_007_loginwithproxy/SampleLoginWithProxy.java:207-211 | normalising twice is the same as normalising once |
| JwtPayload.UrlSymbolToStandard | javasteam-samples/src/main/java/in/dragonbra/javasteamsamples/_007_loginwithproxy/SampleLoginWithProxy.java:207 | the replacement maps each URL-safe symbol to the standard symbol of the same value |
| JwtPayload.ToStandardOfTriple | javasteam-samples/src/main/java/in/dragonbra/javasteamsamples/_007_loginwithproxy/SampleLoginWithProxy.java:207 | the replacement turns the URL-safe symbols of a three-byte group into the standard symbols of the same group |
| JwtPayload.ToStandardOfTail | javasteam-samples/src/main/java/in/dragonbra/javasteamsamples/_007_loginwithproxy/SampleLoginWithProxy.java:207 | the same holds for the shorter final group |
| JwtPayload.ToStandardOfUrlEncoding | javasteam-samples/src/main/java/in/dragonbra/javasteamsamples/_007_loginwithproxy/SampleLoginWithProxy.java:207 | the replacement turns the unpadded URL-safe encoding of any bytes into their unpadded standard encoding |
| JwtPayload.UnpaddedShortfall | javasteam-samples/src/main/java/in/dragonbra/javasteamsamples/_007_loginwithproxy/SampleLoginWithProxy.java:209-210 | an unpadded encoding is short of a multiple of four by exactly the padding the standard encoder would add |
| JwtPayload.PadAppendsShortfall | javasteam-samples/src/main/java/in/dragonbra/javasteamsamples/_007_loginwithproxy/SampleLoginWithProxy.java:209-211 | padding appends exactly the run of `=` that a string is short of |
| JwtPayload.PadCompletesUnpadded | javasteam-samples/src/main/java/in/dragonbra/javasteamsamples/_007_loginwithproxy/SampleLoginWithProxy.java:209-211 | padding an unpadded standard encoding gives the padded encoding |
| JwtPayload.NormalisedUrlEncodingIsStandard | javasteam-samples/src/main/java/in/dragonbra/javasteamsamples/_007_loginwithproxy/SampleLoginWithProxy.java:207-213 | normalising a base64url payload gives the standard Base64 of the same bytes, which the decoder turns back into those bytes |

## Left out

- RSA encryption, `BigInteger` parsing of the hex key, `KeyFactory` and the UTF-8
  conversion of the password are not modelled. They are the parameters
  `Crypto.utf8` and `Crypto.rsa`; an RSA failure becomes `EncryptionFailed`.
- The RPC transport, the protobuf builders and `SteamUnifiedMessages` are
  not modelled. Each RPC is an event, and its response is an input.
- Coroutines, `CompletableFuture`, `pollingWaitForResultCompat` and
  `Thread.sleep` are not modelled. `pollingInterval` is carried but never read,
  because nothing observable depends on the sleep.
- The polling loop at AuthSession.kt:170-175 and the code loop at :139-166 run
  without bound. They are modelled over finite traces, with `Pending` when a
  trace runs out. Non-termination itself is not stated.
- The authenticator's own exceptions and cancellation are not modelled.
  Its answers are the strings and booleans in `Oracles`.
- `CredentialsAuthSession`, `QrAuthSession`, `sendSteamGuardCode`,
  `AuthPollResult`, `AccessTokenGenerateResult` and `AuthenticationException`
  are not part of this model. The following are assumed instead:
  - submitting a code ends in one of three ways: it returns, it throws an
    `AuthenticationException` carrying a result code, or it throws anything else;
  - the QR session adds no client-id hook of its own;
  - the result records copy the response fields.
- AuthSessions.HandlePollResponse models the base poll-response hook only. The
  QR session's override, which may take a refreshed challenge URL from each
  poll, is not modelled. So the "only the client id changes" frame of
  `PollAuthSessionStatus`, `Dispatch` and `PollingWaitForResult` holds for the
  base hook only: for a QR session the model keeps the challenge URL it began with.
- The exception thrown for an empty code at AuthSession.kt:155 is taken to
  carry no result code, so it never counts as a wrong code. The loop swallows
  it and asks again.
- The `else` branch at AuthSession.kt:151 is not modelled: the check at
  :130-134 has already excluded every other type.
- Numeric `EResult` values, `EOSType.code()` and `SteamID.convertToUInt64()`
  are not modelled. The OS type and SteamID are plain integers, and `EResult` is
  a datatype of the named results plus `Unlisted(n)`.
- The `SteamAuthentication` constructor's handler lookup is not modelled: the
  client's connected state is an input.
- The JSON parsing and pretty printing with Gson are not modelled, and nor is
  the console output of the sample.
- The sample decodes with `java.util.Base64`'s decoder. The model's `Decode` is a
  strict RFC 4648 decoder, used only to state the round trip. Its leniency and its
  `IllegalArgumentException` on malformed input are not modelled.
- JwtPayload.PadToQuantum counts the segment's length in Unicode scalar values,
  because a Dafny `string` is a sequence of them. Java's `length()` at
  SampleLoginWithProxy.java:209-210 counts UTF-16 code units. The two agree only
  on text inside the Basic Multilingual Plane, and a valid base64url segment is
  always such text. For a segment with a character outside that plane, the model
  appends a different number of `=` than Java does. The decoder then rejects
  both padded strings.
- The build files are not modelled.
- `SteamAuthentication.EncodePassword` does not state that the result never ends
  in `=`. The code drops the last character whatever it is, so a 256-byte
  ciphertext still ends in one `=`; `RsaTwoKiloBitPasswordKeepsOnePad` proves this.
  Exactly one `=` is removed, leaving none, only when the ciphertext length is
  2 mod 3.

=== FILE: auth_session.dfy ===
/**
 * The login session's state machine: choosing a guard confirmation, the
 * code-entry retry loop, the device-confirmation poll loop and the single poll.
 *
 * The service's poll answers, the service's answers to submitted codes and the
 * authenticator's answers are oracle inputs, consumed in order. The two loops of
 * the session have no bound of their own; here they run over finite oracle
 * traces, and a run whose trace ends while the session would still loop ends
 * `Pending`.
 */
module AuthSessions {
  import opened Protocol
  import opened Confirmations
  import Basics

  /**
   * How the session began. A code-entry guard is only meaningful for a
   * credentials session; the QR variant carries the challenge URL it began with
   * (the QR session's own poll hook, which may refresh it, is not modelled).
   */
  datatype SessionKind = Credentials | Qr(challengeUrl: string)

  datatype AuthSession = AuthSession(
    kind: SessionKind,
    hasAuthenticator: bool,
    clientId: Basics.Long,
    requestId: seq<Basics.byte>,
    allowedConfirmations: seq<AllowedConfirmation>,
    pollingInterval: real)

  /** The invariant established at construction: confirmations in preference order. */
  predicate Valid(s: AuthSession) {
    Sorted(s.allowedConfirmations)
  }

  /** `t` is `s` with at most the client id changed. */
  predicate SameExceptClientId(s: AuthSession, t: AuthSession) {
    s.(clientId := t.clientId) == t
  }

  /** Construction: the `init` block sorts the allowed confirmations. */
  function NewSession(
    kind: SessionKind,
    hasAuthenticator: bool,
    clientId: Basics.Long,
    requestId: seq<Basics.byte>,
    allowedConfirmations: seq<AllowedConfirmation>,
    pollingInterval: real): (s: AuthSession)
    ensures Valid(s)
    ensures multiset(s.allowedConfirmations) == multiset(allowedConfirmations)
    ensures forall k :: WithKey(s.allowedConfirmations, k) == WithKey(allowedConfirmations, k)
    ensures s.kind == kind && s.hasAuthenticator == hasAuthenticator && s.clientId == clientId
    ensures s.requestId == requestId && s.pollingInterval == pollingInterval
  {
    var sorted := SortConfirmations(allowedConfirmations);
    forall k ensures WithKey(sorted, k) == WithKey(allowedConfirmations, k) {
      SortIsStable(allowedConfirmations, k);
    }
    AuthSession(kind, hasAuthenticator, clientId, requestId, sorted, pollingInterval)
  }

  /** Failures the session reports as `AuthenticationException`. */
  datatype AuthError =
    | NoAllowedConfirmations
    | NoFallbackConfirmation
    | UnsupportedConfirmationType(guard: GuardType)
    | WrongSessionType(guard: GuardType)
    | AuthenticatorRequired
    | NotImplemented(guard: GuardType)
    | PollFailed(result: EResult)
    | AuthenticationFailed(result: EResult)
    /** An exception other than `AuthenticationException` left code submission. */
    | SubmissionAborted

  /** A poll's outcome: the tokens, `null` (not yet), or a failure. */
  datatype Outcome = Done(result: AuthPollResult) | Pending | Failed(error: AuthError)

  datatype Step = Step(session: AuthSession, outcome: Outcome)

  // ---------------------------------------------------------------------------
  // The single poll
  // ---------------------------------------------------------------------------

  function PollRequestOf(s: AuthSession): PollRequest {
    PollRequest(s.clientId, s.requestId)
  }

  /** The client id a session holds after an OK answer naming `newClientId`. */
  function NextClientId(clientId: Basics.Long, newClientId: Basics.Long): Basics.Long {
    if newClientId != 0 then newClientId else clientId
  }

  /** The update in `pollAuthSessionStatus` itself: only a positive id is adopted. */
  function AdoptPositiveClientId(s: AuthSession, response: PollResponse): (t: AuthSession)
    ensures SameExceptClientId(s, t)
    ensures t.clientId == s.clientId || 0 < t.clientId
  {
    if response.newClientId > 0 then s.(clientId := response.newClientId) else s
  }

  /** The base `handlePollAuthSessionStatusResponse` hook: any non-zero id is adopted. */
  function HandlePollResponse(s: AuthSession, response: PollResponse): (t: AuthSession)
    ensures SameExceptClientId(s, t)
    ensures t.clientId == s.clientId || t.clientId != 0
  {
    if response.newClientId != 0 then s.(clientId := response.newClientId) else s
  }

  function PollResultOf(response: PollResponse): AuthPollResult {
    AuthPollResult(response.accessToken, response.refreshToken, response.accountName, response.newGuardData)
  }

  /** `pollAuthSessionStatus`, given the service's answer to the poll. */
  function PollAuthSessionStatus(s: AuthSession, response: PollResponse): (r: Step)
    ensures SameExceptClientId(s, r.session)
    ensures response.result != OK ==> r.session == s && r.outcome == Failed(PollFailed(response.result))
    ensures response.result == OK ==> r.session.clientId == NextClientId(s.clientId, response.newClientId)
    ensures response.result == OK ==> !r.outcome.Failed?
    ensures response.result == OK ==> (r.outcome.Done? <==> response.refreshToken != [])
    ensures r.outcome.Done? ==>
              && r.outcome.result.refreshToken == response.refreshToken
              && r.outcome.result.accessToken == response.accessToken
              && r.outcome.result.accountName == response.accountName
              && r.outcome.result.newGuardData == response.newGuardData
  {
    if response.result != OK then
      Step(s, Failed(PollFailed(response.result)))
    else
      var adopted := AdoptPositiveClientId(s, response);
      var handled := HandlePollResponse(adopted, response);
      if response.refreshToken != [] then Step(handled, Done(PollResultOf(response)))
      else Step(handled, Pending)
  }

  /**
   * A negative id (an unsigned id of 2^63 or more read as a `Long`) is skipped
   * by the `> 0` test and adopted by the hook's `!= 0` test.
   */
  lemma NegativeClientIdAdoptedByHook(s: AuthSession, response: PollResponse)
    requires response.result == OK && response.newClientId < 0
    ensures AdoptPositiveClientId(s, response) == s
    ensures PollAuthSessionStatus(s, response).session.clientId == response.newClientId
  {
  }

  // ---------------------------------------------------------------------------
  // The device-confirmation poll loop
  // ---------------------------------------------------------------------------

  /** An OK answer without a refresh token: the poll returns `null`. */
  predicate NotYet(response: PollResponse) {
    response.result == OK && response.refreshToken == []
  }

  datatype PollRun = PollRun(session: AuthSession, requests: seq<PollRequest>, outcome: Outcome)

  /**
   * `pollDeviceConfirmation` from the `i`-th answer on: poll until the first
   * non-null result; a failed poll ends the loop with its exception.
   */
  function PollDeviceConfirmation(s: AuthSession, polls: seq<PollResponse>, i: nat): (r: PollRun)
    requires i <= |polls|
    ensures i + |r.requests| <= |polls|
    ensures SameExceptClientId(s, r.session)
    ensures r.requests != [] ==> r.requests[0] == PollRequestOf(s)
    ensures forall k :: 0 <= k < |r.requests| ==> r.requests[k].requestId == s.requestId
    ensures forall k :: i <= k < i + |r.requests| - 1 ==> NotYet(polls[k])
    ensures forall k :: 0 < k < |r.requests| ==>
              r.requests[k].clientId == NextClientId(r.requests[k - 1].clientId, polls[i + k - 1].newClientId)
    ensures r.outcome.Pending? <==> i + |r.requests| == |polls| && (r.requests == [] || NotYet(polls[|polls| - 1]))
    ensures !r.outcome.Pending? ==> r.requests != []
    ensures r.outcome.Done? ==>
              var last := polls[i + |r.requests| - 1];
              last.result == OK && last.refreshToken != [] && r.outcome.result == PollResultOf(last)
    ensures r.outcome.Failed? ==>
              var last := polls[i + |r.requests| - 1];
              last.result != OK && r.outcome.error == PollFailed(last.result)
    ensures r.requests == [] ==> r.session == s
    ensures r.requests != [] ==>
              var last := polls[i + |r.requests| - 1];
              var q := r.requests[|r.requests| - 1];
              r.session.clientId == if last.result == OK then NextClientId(q.clientId, last.newClientId) else q.clientId
    decreases |polls| - i
  {
    if i == |polls| then
      PollRun(s, [], Pending)
    else
      var step := PollAuthSessionStatus(s, polls[i]);
      if step.outcome.Pending? then
        var rest := PollDeviceConfirmation(step.session, polls, i + 1);
        var requests := [PollRequestOf(s)] + rest.requests;
        assert forall k :: 1 < k < |requests| ==> requests[k] == rest.requests[k - 1];
        assert requests[|requests| - 1] == if rest.requests == [] then PollRequestOf(s) else rest.requests[|rest.requests| - 1];
        assert rest.requests == [] ==> polls[i].result == OK && rest.session == step.session;
        assert i + |requests| - 1 == (i + 1) + |rest.requests| - 1;
        PollRun(rest.session, requests, rest.outcome)
      else
        PollRun(step.session, [PollRequestOf(s)], step.outcome)
  }

  // ---------------------------------------------------------------------------
  // The code-entry loop
  // ---------------------------------------------------------------------------

  /** A request to the authenticator for a code, with the "previous code was incorrect" flag. */
  datatype CodeRequest =
    | EmailCodeRequest(message: string, previousCodeWasIncorrect: bool)
    | DeviceCodeRequest(previousCodeWasIncorrect: bool)

  /**
   * How `sendSteamGuardCode` ends: it returns, it throws an
   * `AuthenticationException` carrying a result code, or it throws anything else.
   */
  datatype SubmitReply = Accepted | Rejected(result: EResult) | Aborted

  /**
   * One turn of the loop as the oracles answer it: the code the authenticator
   * gives (`null` is the empty string) and how its submission ends. The reply
   * is not consulted when the code is empty.
   */
  datatype Attempt = Attempt(code: string, reply: SubmitReply)

  /** The turn's exception is caught and carries the expected wrong-code result. */
  predicate IsWrongCode(a: Attempt, expected: EResult) {
    a.code != [] && a.reply == Rejected(expected)
  }

  /** The turn ends in the `catch` block: an empty code, or a rejected submission. */
  predicate Retries(a: Attempt) {
    a.code == [] || a.reply.Rejected?
  }

  /** Some turn in `[lo, hi)` was a wrong code. */
  predicate WrongCodeBetween(attempts: seq<Attempt>, expected: EResult, lo: nat, hi: nat)
    requires lo <= hi <= |attempts|
  {
    exists j :: lo <= j < hi && IsWrongCode(attempts[j], expected)
  }

  lemma WrongCodeBetweenFirst(attempts: seq<Attempt>, expected: EResult, lo: nat, hi: nat)
    requires lo < hi <= |attempts|
    ensures WrongCodeBetween(attempts, expected, lo, hi) ==
            (IsWrongCode(attempts[lo], expected) || WrongCodeBetween(attempts, expected, lo + 1, hi))
  {
  }

  function CodeRequestFor(c: AllowedConfirmation, previousCodeWasIncorrect: bool): CodeRequest {
    if c.confirmationType == EmailCode then EmailCodeRequest(c.associatedMessage, previousCodeWasIncorrect)
    else DeviceCodeRequest(previousCodeWasIncorrect)
  }

  /** What the session asked of, or sent to, the outside world, in order. */
  datatype Event =
    | AskedDeviceConfirmation
    | AskedCode(codeRequest: CodeRequest)
    | SubmittedCode(code: string)
    | Polled(pollRequest: PollRequest)

  /** Number of polls among the events. */
  function PollCount(es: seq<Event>): nat {
    if es == [] then 0 else (if es[0].Polled? then 1 else 0) + PollCount(es[1..])
  }

  /** Number of code requests among the events. */
  function AskCount(es: seq<Event>): nat {
    if es == [] then 0 else (if es[0].AskedCode? then 1 else 0) + AskCount(es[1..])
  }

  lemma {:induction false} CountsAppend(a: seq<Event>, b: seq<Event>)
    ensures PollCount(a + b) == PollCount(a) + PollCount(b)
    ensures AskCount(a + b) == AskCount(a) + AskCount(b)
  {
    if a == [] {
      assert a + b == b;
    } else {
      assert (a + b)[1..] == a[1..] + b;
      CountsAppend(a[1..], b);
    }
  }

  lemma CountsOfOne(e: Event)
    ensures PollCount([e]) == (if e.Polled? then 1 else 0)
    ensures AskCount([e]) == (if e.AskedCode? then 1 else 0)
  {
    assert [e][1..] == [];
  }

  /** The code requests the authenticator was asked, in order. */
  function AskedRequests(es: seq<Event>): seq<CodeRequest> {
    if es == [] then [] else (if es[0].AskedCode? then [es[0].codeRequest] else []) + AskedRequests(es[1..])
  }

  /** The codes submitted to the service, in order. */
  function SubmittedCodes(es: seq<Event>): seq<string> {
    if es == [] then [] else (if es[0].SubmittedCode? then [es[0].code] else []) + SubmittedCodes(es[1..])
  }

  lemma {:induction false} FiltersAppend(a: seq<Event>, b: seq<Event>)
    ensures AskedRequests(a + b) == AskedRequests(a) + AskedRequests(b)
    ensures SubmittedCodes(a + b) == SubmittedCodes(a) + SubmittedCodes(b)
  {
    if a == [] {
      assert a + b == b;
    } else {
      var e := a[0];
      assert (a + b)[0] == e && (a + b)[1..] == a[1..] + b;
      FiltersAppend(a[1..], b);
      var asked := if e.AskedCode? then [e.codeRequest] else [];
      assert AskedRequests(a + b) == asked + AskedRequests(a[1..] + b);
      assert AskedRequests(a) == asked + AskedRequests(a[1..]);
      var sent := if e.SubmittedCode? then [e.code] else [];
      assert SubmittedCodes(a + b) == sent + SubmittedCodes(a[1..] + b);
      assert SubmittedCodes(a) == sent + SubmittedCodes(a[1..]);
    }
  }

  lemma FiltersOfOne(e: Event)
    ensures AskedRequests([e]) == (if e.AskedCode? then [e.codeRequest] else [])
    ensures SubmittedCodes([e]) == (if e.SubmittedCode? then [e.code] else [])
  {
    assert [e][1..] == [];
  }

  /** The non-empty codes the authenticator returned in turns `i` to `j - 1`. */
  function NonEmptyCodes(attempts: seq<Attempt>, i: nat, j: nat): seq<string>
    requires i <= j <= |attempts|
    decreases j - i
  {
    if i == j then []
    else (if attempts[i].code != [] then [attempts[i].code] else []) + NonEmptyCodes(attempts, i + 1, j)
  }

  datatype CodeOutcome = CodeAccepted | CodeFailed(error: AuthError) | StillWaiting(previousCodeWasIncorrect: bool)

  datatype CodeRun = CodeRun(asked: seq<CodeRequest>, outcome: CodeOutcome)

  /** The events of one turn. */
  function TurnEvents(request: CodeRequest, a: Attempt): (es: seq<Event>)
    ensures AskCount(es) == 1 && PollCount(es) == 0
    ensures forall e :: e in es ==> e.AskedCode? || (e.SubmittedCode? && e.code != [])
    ensures AskedRequests(es) == [request]
    ensures SubmittedCodes(es) == if a.code != [] then [a.code] else []
  {
    CountsOfOne(AskedCode(request));
    FiltersOfOne(AskedCode(request));
    if a.code != [] then
      CountsOfOne(SubmittedCode(a.code));
      CountsAppend([AskedCode(request)], [SubmittedCode(a.code)]);
      FiltersOfOne(SubmittedCode(a.code));
      FiltersAppend([AskedCode(request)], [SubmittedCode(a.code)]);
      [AskedCode(request)] + [SubmittedCode(a.code)]
    else
      [AskedCode(request)]
  }

  /**
   * The `while (waitingForValidCode)` loop from turn `i` on, with the flag's
   * current value `previous`. Every `AuthenticationException` of a turn,
   * including the one for an empty code, is caught and the loop goes on; only
   * a wrong-code result sets the flag, and nothing clears it.
   */
  function CodeLoop(c: AllowedConfirmation, expected: EResult, attempts: seq<Attempt>, i: nat, previous: bool): (r: CodeRun)
    requires i <= |attempts|
    ensures i + |r.asked| <= |attempts|
    ensures forall k :: 0 <= k < |r.asked| ==>
              r.asked[k] == CodeRequestFor(c, previous || WrongCodeBetween(attempts, expected, i, i + k))
    ensures forall k :: i <= k < i + |r.asked| - 1 ==> Retries(attempts[k])
    ensures r.outcome.CodeAccepted? ==>
              r.asked != [] && attempts[i + |r.asked| - 1].code != [] && attempts[i + |r.asked| - 1].reply.Accepted?
    ensures r.outcome.CodeFailed? ==>
              && r.asked != [] && r.outcome.error == SubmissionAborted
              && attempts[i + |r.asked| - 1].code != [] && attempts[i + |r.asked| - 1].reply.Aborted?
    ensures r.outcome.StillWaiting? ==>
              && i + |r.asked| == |attempts|
              && (r.asked == [] || Retries(attempts[|attempts| - 1]))
              && r.outcome.previousCodeWasIncorrect == (previous || WrongCodeBetween(attempts, expected, i, |attempts|))
    decreases |attempts| - i
  {
    if i == |attempts| then
      CodeRun([], StillWaiting(previous))
    else
      var a := attempts[i];
      var request := CodeRequestFor(c, previous);
      if a.code != [] && a.reply.Accepted? then
        CodeRun([request], CodeAccepted)
      else if a.code != [] && a.reply.Aborted? then
        CodeRun([request], CodeFailed(SubmissionAborted))
      else
        var flag := previous || IsWrongCode(a, expected);
        var rest := CodeLoop(c, expected, attempts, i + 1, flag);
        var asked := [request] + rest.asked;
        forall k | 0 < k < |asked|
          ensures asked[k] == CodeRequestFor(c, previous || WrongCodeBetween(attempts, expected, i, i + k))
        {
          assert asked[k] == rest.asked[k - 1];
          WrongCodeBetweenFirst(attempts, expected, i, i + k);
        }
        WrongCodeBetweenFirst(attempts, expected, i, |attempts|);
        CodeRun(asked, rest.outcome)
  }

  /** The first turn's events ahead of the rest's keep every property `CodeEvents` states. */
  lemma {:induction false} CodeEventsCons(asked: seq<CodeRequest>, attempts: seq<Attempt>, i: nat, turn: seq<Event>, rest: seq<Event>)
    requires asked != [] && i + |asked| <= |attempts|
    requires turn == TurnEvents(asked[0], attempts[i])
    requires AskCount(rest) == |asked| - 1 && PollCount(rest) == 0
    requires AskedRequests(rest) == asked[1..]
    requires SubmittedCodes(rest) == NonEmptyCodes(attempts, i + 1, i + |asked|)
    ensures AskCount(turn + rest) == |asked| && PollCount(turn + rest) == 0
    ensures AskedRequests(turn + rest) == asked
    ensures SubmittedCodes(turn + rest) == NonEmptyCodes(attempts, i, i + |asked|)
  {
    CountsAppend(turn, rest);
    FiltersAppend(turn, rest);
    assert asked == [asked[0]] + asked[1..];
  }

  /** The events of the turns from `i` on that asked the requests `asked`. */
  function CodeEvents(asked: seq<CodeRequest>, attempts: seq<Attempt>, i: nat): (es: seq<Event>)
    requires i + |asked| <= |attempts|
    ensures AskCount(es) == |asked| && PollCount(es) == 0
    ensures forall e :: e in es ==> e.AskedCode? || (e.SubmittedCode? && e.code != [])
    ensures AskedRequests(es) == asked
    ensures SubmittedCodes(es) == NonEmptyCodes(attempts, i, i + |asked|)
    decreases |asked|
  {
    if asked == [] then []
    else
      var turn := TurnEvents(asked[0], attempts[i]);
      var rest := CodeEvents(asked[1..], attempts, i + 1);
      CodeEventsCons(asked, attempts, i, turn, rest);
      turn + rest
  }

  /** The flag is never reset: once a request carries it, every later one does. */
  lemma FlagIsNeverReset(c: AllowedConfirmation, expected: EResult, attempts: seq<Attempt>, k1: nat, k2: nat)
    requires k1 <= k2 < |CodeLoop(c, expected, attempts, 0, false).asked|
    ensures CodeLoop(c, expected, attempts, 0, false).asked[k1].previousCodeWasIncorrect ==>
            CodeLoop(c, expected, attempts, 0, false).asked[k2].previousCodeWasIncorrect
  {
    var r := CodeLoop(c, expected, attempts, 0, false);
    if WrongCodeBetween(attempts, expected, 0, k1) {
      var j :| 0 <= j < k1 && IsWrongCode(attempts[j], expected);
      assert WrongCodeBetween(attempts, expected, 0, k2);
    }
  }

  /** The first request for a code says the previous code was not incorrect. */
  lemma FirstRequestIsUnflagged(c: AllowedConfirmation, expected: EResult, attempts: seq<Attempt>)
    requires attempts != []
    ensures CodeLoop(c, expected, attempts, 0, false).asked != []
    ensures !CodeLoop(c, expected, attempts, 0, false).asked[0].previousCodeWasIncorrect
  {
  }

  /**
   * The loop ends exactly at the first turn whose submission returns, when no
   * earlier turn left the loop by another exception.
   */
  lemma {:induction false} LoopExitsAtFirstAcceptedCode(
    c: AllowedConfirmation, expected: EResult, attempts: seq<Attempt>, i: nat, previous: bool, n: nat)
    requires i <= n < |attempts|
    requires attempts[n].code != [] && attempts[n].reply.Accepted?
    requires forall k :: i <= k < n ==> Retries(attempts[k])
    ensures CodeLoop(c, expected, attempts, i, previous).outcome == CodeAccepted
    ensures |CodeLoop(c, expected, attempts, i, previous).asked| == n - i + 1
    decreases n - i
  {
    if i < n {
      var flag := previous || IsWrongCode(attempts[i], expected);
      LoopExitsAtFirstAcceptedCode(c, expected, attempts, i + 1, flag, n);
    }
  }

  /** `handleCodeAuth`: its checks in source order, then the loop from its first turn. */
  function HandleCodeAuth(s: AuthSession, c: AllowedConfirmation, attempts: seq<Attempt>): (r: CodeRun)
    ensures !s.kind.Credentials? ==> r == CodeRun([], CodeFailed(WrongSessionType(c.confirmationType)))
    ensures s.kind.Credentials? && !s.hasAuthenticator ==> r == CodeRun([], CodeFailed(AuthenticatorRequired))
    ensures r.asked != [] ==>
              && s.kind.Credentials? && s.hasAuthenticator
              && c.confirmationType in {EmailCode, DeviceCode}
              && !r.asked[0].previousCodeWasIncorrect
    ensures r.outcome.CodeAccepted? ==> s.kind.Credentials? && s.hasAuthenticator
    ensures r.outcome.StillWaiting? ==> |r.asked| == |attempts|
    ensures |r.asked| <= |attempts|
  {
    if !s.kind.Credentials? then CodeRun([], CodeFailed(WrongSessionType(c.confirmationType)))
    else if !s.hasAuthenticator then CodeRun([], CodeFailed(AuthenticatorRequired))
    else if c.confirmationType == EmailCode then CodeLoop(c, InvalidLoginAuthCode, attempts, 0, false)
    else if c.confirmationType == DeviceCode then CodeLoop(c, TwoFactorCodeMismatch, attempts, 0, false)
    else CodeRun([], CodeFailed(NotImplemented(c.confirmationType)))
  }

  /** The wrong-code result that sets the flag: the one matching the code's channel. */
  lemma ExpectedWrongCodeResult(s: AuthSession, c: AllowedConfirmation, attempts: seq<Attempt>)
    requires s.kind.Credentials? && s.hasAuthenticator
    ensures c.confirmationType == EmailCode ==>
              HandleCodeAuth(s, c, attempts) == CodeLoop(c, InvalidLoginAuthCode, attempts, 0, false)
    ensures c.confirmationType == DeviceCode ==>
              HandleCodeAuth(s, c, attempts) == CodeLoop(c, TwoFactorCodeMismatch, attempts, 0, false)
  {
  }

  // ---------------------------------------------------------------------------
  // Waiting for the result
  // ---------------------------------------------------------------------------

  /**
   * The oracles of one `pollingWaitForResult` call: the authenticator's answer
   * to `acceptDeviceConfirmation`, the code-entry turns, and the service's
   * poll answers, each consumed in order.
   */
  datatype Oracles = Oracles(acceptsDeviceConfirmation: bool, attempts: seq<Attempt>, polls: seq<PollResponse>)

  datatype Wait = Wait(session: AuthSession, events: seq<Event>, outcome: Outcome)

  function PolledEvents(requests: seq<PollRequest>): (es: seq<Event>)
    ensures |es| == |requests|
    ensures forall k :: 0 <= k < |es| ==> es[k] == Polled(requests[k])
    ensures PollCount(es) == |requests| && AskCount(es) == 0
  {
    if requests == [] then []
    else
      var es := [Polled(requests[0])] + PolledEvents(requests[1..]);
      assert es[1..] == PolledEvents(requests[1..]);
      es
  }

  /**
   * What a single, unrepeated poll ends with, given the service's answer: its
   * failure, the tokens, or `AuthenticationFailed(Fail)` for a `null` result.
   */
  predicate SettledByOnePoll(p: PollResponse, outcome: Outcome) {
    && (p.result != OK ==> outcome == Failed(PollFailed(p.result)))
    && (NotYet(p) ==> outcome == Failed(AuthenticationFailed(Fail)))
    && (p.result == OK && p.refreshToken != [] ==> outcome == Done(PollResultOf(p)))
  }

  /** One direct poll; a `null` result is the failure `AuthenticationFailed(Fail)`. */
  function PollOnce(s: AuthSession, polls: seq<PollResponse>): (r: Wait)
    ensures SameExceptClientId(s, r.session)
    ensures polls == [] ==> r == Wait(s, [], Pending)
    ensures polls != [] ==> r.events == [Polled(PollRequestOf(s))] && !r.outcome.Pending?
    ensures polls != [] && polls[0].result != OK ==> r.outcome == Failed(PollFailed(polls[0].result))
    ensures polls != [] && NotYet(polls[0]) ==> r.outcome == Failed(AuthenticationFailed(Fail))
    ensures polls != [] && polls[0].result == OK && polls[0].refreshToken != [] ==>
              r.outcome == Done(PollResultOf(polls[0]))
    ensures polls != [] && polls[0].result != OK ==> r.session == s
    ensures polls != [] && polls[0].result == OK ==> r.session.clientId == NextClientId(s.clientId, polls[0].newClientId)
    ensures AskedRequests(r.events) == [] && SubmittedCodes(r.events) == []
    ensures PollCount(r.events) == (if polls == [] then 0 else 1) && AskCount(r.events) == 0
  {
    if polls == [] then Wait(s, [], Pending)
    else
      var step := PollAuthSessionStatus(s, polls[0]);
      FiltersOfOne(Polled(PollRequestOf(s)));
      CountsOfOne(Polled(PollRequestOf(s)));
      var outcome := if step.outcome.Pending? then Failed(AuthenticationFailed(Fail)) else step.outcome;
      Wait(step.session, [Polled(PollRequestOf(s))], outcome)
  }

  /**
   * The e-mail or device code branch: `handleCodeAuth`, whose failure is the
   * call's failure, and after an accepted code the single poll.
   */
  function CodeGuardWait(s: AuthSession, c: AllowedConfirmation, o: Oracles): (r: Wait)
    ensures SameExceptClientId(s, r.session)
    ensures AskedDeviceConfirmation !in r.events
    ensures r.outcome.Pending? ==> PollCount(r.events) == |o.polls| || AskCount(r.events) == |o.attempts|
    ensures var code := HandleCodeAuth(s, c, o.attempts);
            && (code.outcome.CodeFailed? ==> r.session == s && r.outcome == Failed(code.outcome.error))
            && (code.outcome.StillWaiting? ==> r.outcome == Pending)
            && (code.outcome.CodeAccepted? && o.polls != [] ==> SettledByOnePoll(o.polls[0], r.outcome))
            && (code.outcome.CodeAccepted? ==> r.session == PollOnce(s, o.polls).session)
            && AskedRequests(r.events) == code.asked
            && SubmittedCodes(r.events) == NonEmptyCodes(o.attempts, 0, |code.asked|)
    ensures PollCount(r.events) == 0 ==> r.session == s
  {
    var code := HandleCodeAuth(s, c, o.attempts);
    var events := CodeEvents(code.asked, o.attempts, 0);
    match code.outcome
    case CodeFailed(e) => Wait(s, events, Failed(e))
    case StillWaiting(_) => Wait(s, events, Pending)
    case CodeAccepted =>
      var poll := PollOnce(s, o.polls);
      CountsAppend(events, poll.events);
      FiltersAppend(events, poll.events);
      Wait(poll.session, events + poll.events, poll.outcome)
  }

  /** The `when` on the preferred confirmation's type, and what follows it. */
  function Dispatch(s: AuthSession, preferred: AllowedConfirmation, o: Oracles): (r: Wait)
    ensures SameExceptClientId(s, r.session)
    ensures AskedDeviceConfirmation !in r.events
    ensures r.outcome.Pending? ==> PollCount(r.events) == |o.polls| || AskCount(r.events) == |o.attempts|
    ensures PollCount(r.events) == 0 ==> r.session == s
    ensures preferred.confirmationType == None && o.polls != [] ==>
              && SettledByOnePoll(o.polls[0], r.outcome)
              && (o.polls[0].result != OK ==> r.session == s)
              && (o.polls[0].result == OK ==> r.session.clientId == NextClientId(s.clientId, o.polls[0].newClientId))
    ensures preferred.confirmationType in {EmailCode, DeviceCode} ==>
              var code := HandleCodeAuth(s, preferred, o.attempts);
              && (code.outcome.CodeFailed? ==> r.session == s && r.outcome == Failed(code.outcome.error))
              && (code.outcome.StillWaiting? ==> r.outcome == Pending)
              && (code.outcome.CodeAccepted? && o.polls != [] ==> SettledByOnePoll(o.polls[0], r.outcome))
              && (code.outcome.CodeAccepted? ==> r.session == PollOnce(s, o.polls).session)
              && AskedRequests(r.events) == code.asked
              && SubmittedCodes(r.events) == NonEmptyCodes(o.attempts, 0, |code.asked|)
    ensures preferred.confirmationType == DeviceConfirmation ==>
              var run := PollDeviceConfirmation(s, o.polls, 0);
              r.session == run.session && r.events == PolledEvents(run.requests) && r.outcome == run.outcome
    ensures preferred.confirmationType !in {None, EmailCode, DeviceCode, DeviceConfirmation} ==>
              r == Wait(s, [], Failed(UnsupportedConfirmationType(preferred.confirmationType)))
  {
    match preferred.confirmationType
    case None => PollOnce(s, o.polls)
    case EmailCode | DeviceCode => CodeGuardWait(s, preferred, o)
    case DeviceConfirmation =>
      var run := PollDeviceConfirmation(s, o.polls, 0);
      Wait(run.session, PolledEvents(run.requests), run.outcome)
    case _ => Wait(s, [], Failed(UnsupportedConfirmationType(preferred.confirmationType)))
  }

  /** `pollingWaitForResult`. */
  function PollingWaitForResult(s: AuthSession, o: Oracles): (r: Wait)
    ensures SameExceptClientId(s, r.session)
    ensures Valid(s) ==> Valid(r.session)
    ensures PollCount(r.events) == 0 ==> r.session == s
  {
    var allowed := s.allowedConfirmations;
    if allowed == [] || allowed[0].confirmationType == Unknown then
      Wait(s, [], Failed(NoAllowedConfirmations))
    else if s.hasAuthenticator && allowed[0].confirmationType == DeviceConfirmation then
      if o.acceptsDeviceConfirmation then
        var w := Dispatch(s, allowed[0], o);
        Wait(w.session, [AskedDeviceConfirmation] + w.events, w.outcome)
      else if |allowed| <= 1 then
        Wait(s, [AskedDeviceConfirmation], Failed(NoFallbackConfirmation))
      else
        var w := Dispatch(s, allowed[1], o);
        Wait(w.session, [AskedDeviceConfirmation] + w.events, w.outcome)
    else
      Dispatch(s, allowed[0], o)
  }

  /**
   * The confirmation the session settles on, once the authenticator has answered:
   * the most preferred one, unless a device confirmation was offered first and
   * declined, in which case the next one. (Declining with no next one fails
   * before this choice matters; the head is returned then.)
   */
  function Preferred(s: AuthSession, o: Oracles): (r: AllowedConfirmation)
    requires s.allowedConfirmations != []
    ensures r in s.allowedConfirmations
    ensures (!(s.hasAuthenticator && s.allowedConfirmations[0].confirmationType == DeviceConfirmation)
             || o.acceptsDeviceConfirmation) ==> r == s.allowedConfirmations[0]
    ensures (&& s.hasAuthenticator && s.allowedConfirmations[0].confirmationType == DeviceConfirmation
             && !o.acceptsDeviceConfirmation && |s.allowedConfirmations| > 1) ==> r == s.allowedConfirmations[1]
    ensures Valid(s) ==> forall k :: 1 <= k < |s.allowedConfirmations| ==> Key(r) <= Key(s.allowedConfirmations[k])
  {
    var allowed := s.allowedConfirmations;
    if s.hasAuthenticator && allowed[0].confirmationType == DeviceConfirmation
       && !o.acceptsDeviceConfirmation && |allowed| > 1
    then allowed[1]
    else allowed[0]
  }

  /** An empty list, or `Unknown` first, fails before any question or poll. */
  lemma NoConfirmationsFailsFirst(s: AuthSession, o: Oracles)
    requires s.allowedConfirmations == [] || s.allowedConfirmations[0].confirmationType == Unknown
    ensures PollingWaitForResult(s, o) == Wait(s, [], Failed(NoAllowedConfirmations))
  {
  }

  /**
   * The authenticator is asked about device confirmation exactly once when it
   * exists and device confirmation is first, and otherwise never.
   */
  lemma DeviceConfirmationQuestion(s: AuthSession, o: Oracles)
    requires s.allowedConfirmations != [] && s.allowedConfirmations[0].confirmationType != Unknown
    ensures var r := PollingWaitForResult(s, o);
            if s.hasAuthenticator && s.allowedConfirmations[0].confirmationType == DeviceConfirmation
            then r.events != [] && r.events[0] == AskedDeviceConfirmation && AskedDeviceConfirmation !in r.events[1..]
            else AskedDeviceConfirmation !in r.events
  {
    var r := PollingWaitForResult(s, o);
    if s.hasAuthenticator && s.allowedConfirmations[0].confirmationType == DeviceConfirmation {
      if o.acceptsDeviceConfirmation || |s.allowedConfirmations| > 1 {
        var w := Dispatch(s, Preferred(s, o), o);
        assert r.events[1..] == w.events;
      }
    }
  }

  /** Declining device confirmation with nothing to fall back to fails, without codes or polls. */
  lemma DeclinedWithoutFallbackFails(s: AuthSession, o: Oracles)
    requires |s.allowedConfirmations| == 1
    requires s.allowedConfirmations[0].confirmationType == DeviceConfirmation
    requires s.hasAuthenticator && !o.acceptsDeviceConfirmation
    ensures PollingWaitForResult(s, o) == Wait(s, [AskedDeviceConfirmation], Failed(NoFallbackConfirmation))
  {
  }

  /**
   * After the question, the rest of the call is the dispatch of the preferred
   * confirmation: the first one, or the second after a declined device confirmation.
   */
  lemma WaitDispatchesPreferred(s: AuthSession, o: Oracles)
    requires s.allowedConfirmations != [] && s.allowedConfirmations[0].confirmationType != Unknown
    requires !(s.hasAuthenticator && s.allowedConfirmations[0].confirmationType == DeviceConfirmation
               && !o.acceptsDeviceConfirmation && |s.allowedConfirmations| <= 1)
    ensures var r := PollingWaitForResult(s, o);
            var w := Dispatch(s, Preferred(s, o), o);
            && r.session == w.session && r.outcome == w.outcome
            && r.events == (if s.hasAuthenticator && s.allowedConfirmations[0].confirmationType == DeviceConfirmation
                            then [AskedDeviceConfirmation] else []) + w.events
  {
  }

  /** A fallback to an `Unknown` second entry is reported as unsupported, not as "no confirmations". */
  lemma FallbackToUnknownIsUnsupported(s: AuthSession, o: Oracles)
    requires |s.allowedConfirmations| >= 2
    requires s.allowedConfirmations[0].confirmationType == DeviceConfirmation
    requires s.allowedConfirmations[1].confirmationType == Unknown
    requires s.hasAuthenticator && !o.acceptsDeviceConfirmation
    ensures PollingWaitForResult(s, o) == Wait(s, [AskedDeviceConfirmation], Failed(UnsupportedConfirmationType(Unknown)))
  {
  }

  /** Guard types other than None, the two codes and device confirmation are unsupported. */
  lemma UnsupportedTypeFails(s: AuthSession, o: Oracles)
    requires s.allowedConfirmations != [] && s.allowedConfirmations[0].confirmationType != Unknown
    requires Preferred(s, o).confirmationType !in {None, EmailCode, DeviceCode, DeviceConfirmation}
    ensures PollingWaitForResult(s, o).outcome == Failed(UnsupportedConfirmationType(Preferred(s, o).confirmationType))
    ensures forall e :: e in PollingWaitForResult(s, o).events ==> e == AskedDeviceConfirmation
  {
    WaitDispatchesPreferred(s, o);
  }

  /**
   * With no guard, the call is one poll whose tokens are returned as they are;
   * a `null` poll is a failure.
   */
  lemma NoGuardIsOnePoll(s: AuthSession, o: Oracles)
    requires s.allowedConfirmations != [] && s.allowedConfirmations[0].confirmationType == None
    requires o.polls != []
    ensures var r := PollingWaitForResult(s, o);
            var p := o.polls[0];
            && r.events == [Polled(PollRequestOf(s))]
            && (p.result != OK ==> r.outcome == Failed(PollFailed(p.result)))
            && (NotYet(p) ==> r.outcome == Failed(AuthenticationFailed(Fail)))
            && (p.result == OK && p.refreshToken != [] ==> r.outcome == Done(PollResultOf(p)))
  {
  }

  /**
   * A code guard polls at most once, and only after a code was accepted; the
   * poll is the last thing that happens and is sent with the session's ids.
   */
  lemma CodeGuardPollsOnceAfterAcceptance(s: AuthSession, c: AllowedConfirmation, o: Oracles)
    requires c.confirmationType in {EmailCode, DeviceCode}
    ensures var w := Dispatch(s, c, o);
            var code := HandleCodeAuth(s, c, o.attempts);
            && PollCount(w.events) <= 1
            && (PollCount(w.events) == 1 <==> code.outcome.CodeAccepted? && o.polls != [])
            && (PollCount(w.events) == 1 ==> w.events[|w.events| - 1] == Polled(PollRequestOf(s)))
            && AskCount(w.events) == |code.asked|
            && (code.outcome.CodeFailed? ==> w.outcome == Failed(code.outcome.error))
            && (code.outcome.CodeAccepted? ==> w.outcome == PollOnce(s, o.polls).outcome)
  {
    var w := Dispatch(s, c, o);
    assert w == CodeGuardWait(s, c, o);
    var code := HandleCodeAuth(s, c, o.attempts);
    var events := CodeEvents(code.asked, o.attempts, 0);
    if code.outcome.CodeAccepted? {
      var poll := PollOnce(s, o.polls);
      assert w.events == events + poll.events;
      CountsAppend(events, poll.events);
      if o.polls != [] {
        CountsOfOne(Polled(PollRequestOf(s)));
      }
    } else {
      assert w.events == events;
    }
  }

  /**
   * Device confirmation only polls: it asks nothing, and it ends with the
   * tokens of the first OK answer that carries a refresh token.
   */
  lemma DeviceConfirmationOnlyPolls(s: AuthSession, c: AllowedConfirmation, o: Oracles)
    requires c.confirmationType == DeviceConfirmation
    ensures var w := Dispatch(s, c, o);
            && AskCount(w.events) == 0
            && (forall e :: e in w.events ==> e.Polled?)
            && (w.outcome.Done? ==>
                  var last := o.polls[PollCount(w.events) - 1];
                  && 0 < PollCount(w.events) <= |o.polls|
                  && (forall k :: 0 <= k < PollCount(w.events) - 1 ==> NotYet(o.polls[k]))
                  && last.result == OK && last.refreshToken != [] && w.outcome.result == PollResultOf(last))
  {
    var run := PollDeviceConfirmation(s, o.polls, 0);
    var es := PolledEvents(run.requests);
    forall e | e in es
      ensures e.Polled?
    {
      var k :| 0 <= k < |es| && es[k] == e;
    }
  }

  /** A code guard in a QR session fails before anything else happens. */
  lemma CodeGuardNeedsCredentialsSession(s: AuthSession, o: Oracles)
    requires s.allowedConfirmations != [] && s.allowedConfirmations[0].confirmationType in {EmailCode, DeviceCode}
    requires s.kind.Qr?
    ensures PollingWaitForResult(s, o) ==
            Wait(s, [], Failed(WrongSessionType(s.allowedConfirmations[0].confirmationType)))
  {
  }

  /** A code guard without an authenticator fails before anything else happens. */
  lemma CodeGuardNeedsAuthenticator(s: AuthSession, o: Oracles)
    requires s.allowedConfirmations != [] && s.allowedConfirmations[0].confirmationType in {EmailCode, DeviceCode}
    requires s.kind.Credentials? && !s.hasAuthenticator
    ensures PollingWaitForResult(s, o) == Wait(s, [], Failed(AuthenticatorRequired))
  {
  }

  /**
   * The outcome is `Pending` only when an oracle trace is used up while the
   * session would still wait: every poll answer, or every code turn, was used.
   */
  lemma PendingOnlyWhenTraceEnds(s: AuthSession, o: Oracles)
    requires PollingWaitForResult(s, o).outcome.Pending?
    ensures var r := PollingWaitForResult(s, o);
            PollCount(r.events) == |o.polls| || AskCount(r.events) == |o.attempts|
  {
    var allowed := s.allowedConfirmations;
    if s.hasAuthenticator && allowed[0].confirmationType == DeviceConfirmation {
      var w := Dispatch(s, Preferred(s, o), o);
      CountsAppend([AskedDeviceConfirmation], w.events);
    }
  }

  /** The confirmation, session, answers and requests of the worked example below. */
  const ExampleConfirmation := AllowedConfirmation(EmailCode, "a***@example.com")
  const ExampleAttempts := [Attempt("BAD00", Rejected(InvalidLoginAuthCode)), Attempt("GOOD1", Accepted)]
  const ExampleAsked := [EmailCodeRequest("a***@example.com", false), EmailCodeRequest("a***@example.com", true)]

  const ExampleSession := AuthSession(Credentials, true, 5, [1, 2], [ExampleConfirmation], 5.0)
  const ExamplePoll := PollResponse(OK, 0, "refresh", "access", "name", "")
  const ExampleOracles := Oracles(false, ExampleAttempts, [ExamplePoll])

  lemma ExampleSessionIsSorted()
    ensures NewSession(Credentials, true, 5, [1, 2], [ExampleConfirmation], 5.0) == ExampleSession
  {
    var s := NewSession(Credentials, true, 5, [1, 2], [ExampleConfirmation], 5.0);
    assert multiset(s.allowedConfirmations) == multiset{ExampleConfirmation};
    assert |s.allowedConfirmations| == 1;
    assert s.allowedConfirmations[0] in multiset(s.allowedConfirmations);
  }

  /** The wrong code flags the second request, and the second code is accepted. */
  lemma ExampleCodeRun()
    ensures HandleCodeAuth(ExampleSession, ExampleConfirmation, ExampleAttempts) == CodeRun(ExampleAsked, CodeAccepted)
  {
    assert CodeLoop(ExampleConfirmation, InvalidLoginAuthCode, ExampleAttempts, 1, true)
           == CodeRun([ExampleAsked[1]], CodeAccepted);
    assert CodeLoop(ExampleConfirmation, InvalidLoginAuthCode, ExampleAttempts, 0, false)
           == CodeRun(ExampleAsked, CodeAccepted);
  }

  lemma ExampleCodeEvents()
    ensures CodeEvents(ExampleAsked, ExampleAttempts, 0)
            == [AskedCode(ExampleAsked[0]), SubmittedCode("BAD00"), AskedCode(ExampleAsked[1]), SubmittedCode("GOOD1")]
  {
    assert ExampleAsked[1..] == [ExampleAsked[1]];
    assert ExampleAsked[1..][1..] == [];
  }

  /** The events the worked example records. */
  const ExampleEvents := [ AskedCode(EmailCodeRequest("a***@example.com", false)), SubmittedCode("BAD00"),
                           AskedCode(EmailCodeRequest("a***@example.com", true)), SubmittedCode("GOOD1"),
                           Polled(PollRequest(5, [1, 2])) ]

  /** After the accepted code, the one poll completes the login. */
  lemma ExampleWait()
    ensures CodeGuardWait(ExampleSession, ExampleConfirmation, ExampleOracles)
            == Wait(ExampleSession, ExampleEvents, Done(PollResultOf(ExamplePoll)))
  {
    ExampleCodeRun();
    ExampleCodeEvents();
    var es := CodeEvents(ExampleAsked, ExampleAttempts, 0);
    assert es + [Polled(PollRequest(5, [1, 2]))] == ExampleEvents;
  }

  lemma ExampleDispatch()
    ensures PollingWaitForResult(ExampleSession, ExampleOracles)
            == Wait(ExampleSession, ExampleEvents, Done(PollResultOf(ExamplePoll)))
  {
    assert PollingWaitForResult(ExampleSession, ExampleOracles)
           == CodeGuardWait(ExampleSession, ExampleConfirmation, ExampleOracles);
    ExampleWait();
  }

  /**
   * A credentials session preferring an email code, whose first code is wrong
   * and whose second is accepted: the authenticator is asked twice, with the
   * flag false and then true, and the following poll completes the login.
   */
  lemma EmailCodeRetriedOnce()
    ensures NewSession(Credentials, true, 5, [1, 2], [ExampleConfirmation], 5.0) == ExampleSession
    ensures var r := PollingWaitForResult(ExampleSession, ExampleOracles);
            && r.events == [ AskedCode(EmailCodeRequest("a***@example.com", false)), SubmittedCode("BAD00"),
                             AskedCode(EmailCodeRequest("a***@example.com", true)), SubmittedCode("GOOD1"),
                             Polled(PollRequest(5, [1, 2])) ]
            && r.outcome == Done(AuthPollResult("access", "refresh", "name", ""))
  {
    ExampleSessionIsSorted();
    ExampleDispatch();
  }
}

=== FILE: base64.dfy ===
/**
 * The Base 64 encoding of section 4 of RFC 4648 and the URL- and filename-safe
 * alphabet of section 5. The encoder is what the password pipeline hands its
 * ciphertext to; the decoder is its partner, used to state the round trip.
 */
module Base64 {
  import opened Basics

  /** A 6-bit group: the index of a symbol in an alphabet. */
  type Sextet = x: int | 0 <= x < 64

  /** Table 1 (section 4) and Table 2 (section 5) of RFC 4648. */
  datatype Alphabet = Standard | UrlSafe

  const PadChar := '='

  /** Value 62 of the alphabet. */
  function Symbol62(a: Alphabet): char {
    if a.Standard? then '+' else '-'
  }

  /** Value 63 of the alphabet. */
  function Symbol63(a: Alphabet): char {
    if a.Standard? then '/' else '_'
  }

  /** The symbol for a 6-bit value. */
  function Symbol(a: Alphabet, v: Sextet): char {
    if v < 26 then ('A' as int + v) as char
    else if v < 52 then ('a' as int + (v - 26)) as char
    else if v < 62 then ('0' as int + (v - 52)) as char
    else if v == 62 then Symbol62(a)
    else Symbol63(a)
  }

  predicate IsSymbol(a: Alphabet, c: char) {
    || 'A' <= c <= 'Z'
    || 'a' <= c <= 'z'
    || '0' <= c <= '9'
    || c == Symbol62(a)
    || c == Symbol63(a)
  }

  /** The 6-bit value a symbol stands for: the inverse of `Symbol`. */
  function SymbolValue(a: Alphabet, c: char): (v: Sextet)
    requires IsSymbol(a, c)
    ensures Symbol(a, v) == c
  {
    if 'A' <= c <= 'Z' then c as int - 'A' as int
    else if 'a' <= c <= 'z' then c as int - 'a' as int + 26
    else if '0' <= c <= '9' then c as int - '0' as int + 52
    else if c == Symbol62(a) then 62
    else 63
  }

  /** Every value has a symbol, and decoding that symbol gives the value back. */
  lemma SymbolRoundTrip(a: Alphabet, v: Sextet)
    ensures IsSymbol(a, Symbol(a, v))
    ensures SymbolValue(a, Symbol(a, v)) == v
  {
  }

  /** The pad character belongs to neither alphabet. */
  lemma PadIsNotSymbol(a: Alphabet)
    ensures !IsSymbol(a, PadChar)
  {
  }

  /** Four symbols for three octets (the 24-bit group of section 4). */
  function EncodeTriple(a: Alphabet, b0: byte, b1: byte, b2: byte): string {
    [ Symbol(a, b0 as int / 4),
      Symbol(a, (b0 as int % 4) * 16 + b1 as int / 16),
      Symbol(a, (b1 as int % 16) * 4 + b2 as int / 64),
      Symbol(a, b2 as int % 64) ]
  }

  /** The pad characters that complete the final quantum of `n` octets. */
  function Padding(n: nat): (p: string)
    ensures |p| == (3 - n % 3) % 3
    ensures forall i :: 0 <= i < |p| ==> p[i] == PadChar
  {
    if n % 3 == 1 then "==" else if n % 3 == 2 then "=" else ""
  }

  /** The final quantum of one or two octets, before padding. */
  function EncodeTail(a: Alphabet, b: seq<byte>): string
    requires 1 <= |b| <= 2
  {
    if |b| == 1 then
      [Symbol(a, b[0] as int / 4), Symbol(a, (b[0] as int % 4) * 16)]
    else
      [ Symbol(a, b[0] as int / 4),
        Symbol(a, (b[0] as int % 4) * 16 + b[1] as int / 16),
        Symbol(a, (b[1] as int % 16) * 4) ]
  }

  /** Number of characters of the unpadded encoding of `n` octets. */
  function UnpaddedLength(n: nat): nat {
    4 * (n / 3) + (if n % 3 == 0 then 0 else n % 3 + 1)
  }

  /** The encoding of `b` in alphabet `a`, without the final padding. */
  function EncodeUnpadded(a: Alphabet, b: seq<byte>): (r: string)
    ensures |r| == UnpaddedLength(|b|)
    decreases |b|
  {
    if |b| == 0 then ""
    else if |b| < 3 then EncodeTail(a, b)
    else EncodeTriple(a, b[0], b[1], b[2]) + EncodeUnpadded(a, b[3..])
  }

  /** The unpadded length and the padding together fill every started group of four. */
  lemma PaddedLength(n: nat)
    ensures UnpaddedLength(n) + |Padding(n)| == 4 * ((n + 2) / 3)
    ensures (UnpaddedLength(n) + |Padding(n)|) % 4 == 0
  {
    var q, m := n / 3, n % 3;
    assert n == 3 * q + m;
    assert (n + 2) / 3 == if m == 0 then q else q + 1;
  }

  /** Base 64 of section 4 of RFC 4648, as `java.util.Base64.getEncoder()` produces it. */
  function Encode(b: seq<byte>): (r: string)
    ensures |r| % 4 == 0
    ensures |r| == 4 * ((|b| + 2) / 3)
  {
    PaddedLength(|b|);
    EncodeUnpadded(Standard, b) + Padding(|b|)
  }

  /**
   * The URL- and filename-safe encoding of section 5 of RFC 4648 with the
   * padding omitted, which is the base64url form of section 2 of RFC 7515.
   */
  function EncodeUrl(b: seq<byte>): (r: string)
    ensures forall i :: 0 <= i < |r| ==> IsSymbol(UrlSafe, r[i])
  {
    UnpaddedUsesAlphabet(UrlSafe, b);
    EncodeUnpadded(UrlSafe, b)
  }

  /** Encoding three octets at a time: the first quantum is independent of the rest. */
  lemma EncodeSplits(b: seq<byte>)
    requires 3 < |b|
    ensures Encode(b) == EncodeTriple(Standard, b[0], b[1], b[2]) + Encode(b[3..])
  {
    assert Padding(|b|) == Padding(|b[3..]|);
  }

  /** The unpadded encoding uses only symbols of its alphabet. */
  lemma {:induction false} UnpaddedUsesAlphabet(a: Alphabet, b: seq<byte>)
    ensures forall i :: 0 <= i < |EncodeUnpadded(a, b)| ==> IsSymbol(a, EncodeUnpadded(a, b)[i])
    decreases |b|
  {
    if 3 <= |b| {
      UnpaddedUsesAlphabet(a, b[3..]);
      var r := EncodeUnpadded(a, b);
      var t := EncodeTriple(a, b[0], b[1], b[2]);
      assert r == t + EncodeUnpadded(a, b[3..]);
      forall i | 0 <= i < |r|
        ensures IsSymbol(a, r[i])
      {
        if i < 4 {
          SymbolRoundTrip(a, b[0] as int / 4);
          SymbolRoundTrip(a, (b[0] as int % 4) * 16 + b[1] as int / 16);
          SymbolRoundTrip(a, (b[1] as int % 16) * 4 + b[2] as int / 64);
          SymbolRoundTrip(a, b[2] as int % 64);
        } else {
          assert r[i] == EncodeUnpadded(a, b[3..])[i - 4];
        }
      }
    } else if 1 <= |b| {
      SymbolRoundTrip(a, b[0] as int / 4);
      SymbolRoundTrip(a, (b[0] as int % 4) * 16);
      if |b| == 2 {
        SymbolRoundTrip(a, (b[0] as int % 4) * 16 + b[1] as int / 16);
        SymbolRoundTrip(a, (b[1] as int % 16) * 4);
      }
    }
  }

  /** Three octets from four 6-bit values. */
  function Join(v0: Sextet, v1: Sextet, v2: Sextet, v3: Sextet): seq<byte> {
    [ (v0 * 4 + v1 / 16) as byte,
      ((v1 % 16) * 16 + v2 / 4) as byte,
      ((v2 % 4) * 64 + v3) as byte ]
  }

  /** Decodes one quantum of four characters; pad characters are accepted only when `last`. */
  function DecodeQuantum(q: string, last: bool): Option<seq<byte>>
    requires |q| == 4
  {
    var a := Standard;
    if IsSymbol(a, q[0]) && IsSymbol(a, q[1]) && IsSymbol(a, q[2]) && IsSymbol(a, q[3]) then
      Some(Join(SymbolValue(a, q[0]), SymbolValue(a, q[1]), SymbolValue(a, q[2]), SymbolValue(a, q[3])))
    else if last && IsSymbol(a, q[0]) && IsSymbol(a, q[1]) && IsSymbol(a, q[2]) && q[3] == PadChar then
      Some(Join(SymbolValue(a, q[0]), SymbolValue(a, q[1]), SymbolValue(a, q[2]), 0)[..2])
    else if last && IsSymbol(a, q[0]) && IsSymbol(a, q[1]) && q[2] == PadChar && q[3] == PadChar then
      Some(Join(SymbolValue(a, q[0]), SymbolValue(a, q[1]), 0, 0)[..1])
    else
      None
  }

  /**
   * Decoding of section 4 of RFC 4648: the input is a whole number of quanta and
   * padding may appear only in the final one. Bits left over by a padded final
   * quantum are ignored.
   */
  function Decode(s: string): Option<seq<byte>>
    decreases |s|
  {
    if |s| == 0 then Some([])
    else if |s| < 4 then None
    else if |s| == 4 then DecodeQuantum(s, true)
    else
      match DecodeQuantum(s[..4], false)
      case None => None
      case Some(head) =>
        match Decode(s[4..])
        case None => None
        case Some(rest) => Some(head + rest)
  }

  lemma JoinSplitsTriple(b0: byte, b1: byte, b2: byte)
    ensures Join(b0 as int / 4, (b0 as int % 4) * 16 + b1 as int / 16,
                 (b1 as int % 16) * 4 + b2 as int / 64, b2 as int % 64) == [b0, b1, b2]
  {
    var x0, x1, x2 := b0 as int, b1 as int, b2 as int;
    assert (x0 / 4) * 4 + ((x0 % 4) * 16 + x1 / 16) / 16 == x0;
    assert (((x0 % 4) * 16 + x1 / 16) % 16) * 16 + ((x1 % 16) * 4 + x2 / 64) / 4 == x1;
    assert (((x1 % 16) * 4 + x2 / 64) % 4) * 64 + x2 % 64 == x2;
  }

  lemma {:induction false} DecodeQuantumOfTriple(b0: byte, b1: byte, b2: byte, last: bool)
    ensures DecodeQuantum(EncodeTriple(Standard, b0, b1, b2), last) == Some([b0, b1, b2])
  {
    var a := Standard;
    var v0, v1, v2, v3 := b0 as int / 4, (b0 as int % 4) * 16 + b1 as int / 16,
                          (b1 as int % 16) * 4 + b2 as int / 64, b2 as int % 64;
    SymbolRoundTrip(a, v0);
    SymbolRoundTrip(a, v1);
    SymbolRoundTrip(a, v2);
    SymbolRoundTrip(a, v3);
    JoinSplitsTriple(b0, b1, b2);
  }

  /** A final quantum holding one octet decodes to that octet. */
  lemma DecodeQuantumOfOne(b0: byte)
    ensures DecodeQuantum([Symbol(Standard, b0 as int / 4), Symbol(Standard, (b0 as int % 4) * 16),
                           PadChar, PadChar], true) == Some([b0])
  {
    var a := Standard;
    var v0, v1 := b0 as int / 4, (b0 as int % 4) * 16;
    SymbolRoundTrip(a, v0);
    SymbolRoundTrip(a, v1);
    PadIsNotSymbol(a);
    JoinSplitsTriple(b0, 0, 0);
    assert Join(v0, v1, 0, 0) == [b0, 0, 0];
    assert [b0, 0, 0][..1] == [b0];
  }

  /** A final quantum holding two octets decodes to those octets. */
  lemma DecodeQuantumOfTwo(b0: byte, b1: byte)
    ensures DecodeQuantum([Symbol(Standard, b0 as int / 4), Symbol(Standard, (b0 as int % 4) * 16 + b1 as int / 16),
                           Symbol(Standard, (b1 as int % 16) * 4), PadChar], true) == Some([b0, b1])
  {
    var a := Standard;
    var v0, v1, v2 := b0 as int / 4, (b0 as int % 4) * 16 + b1 as int / 16, (b1 as int % 16) * 4;
    SymbolRoundTrip(a, v0);
    SymbolRoundTrip(a, v1);
    SymbolRoundTrip(a, v2);
    PadIsNotSymbol(a);
    JoinSplitsTriple(b0, b1, 0);
    assert Join(v0, v1, v2, 0) == [b0, b1, 0];
    assert [b0, b1, 0][..2] == [b0, b1];
  }

  lemma {:induction false} DecodeQuantumOfTail(b: seq<byte>)
    requires 1 <= |b| <= 2
    ensures DecodeQuantum(EncodeTail(Standard, b) + Padding(|b|), true) == Some(b)
  {
    var a := Standard;
    var q := EncodeTail(a, b) + Padding(|b|);
    if |b| == 1 {
      assert q == [Symbol(a, b[0] as int / 4), Symbol(a, (b[0] as int % 4) * 16), PadChar, PadChar];
      DecodeQuantumOfOne(b[0]);
      assert [b[0]] == b;
    } else {
      assert q == [Symbol(a, b[0] as int / 4), Symbol(a, (b[0] as int % 4) * 16 + b[1] as int / 16),
                   Symbol(a, (b[1] as int % 16) * 4), PadChar];
      DecodeQuantumOfTwo(b[0], b[1]);
      assert [b[0], b[1]] == b;
    }
  }

  lemma DecodeEncodeTriple(b: seq<byte>)
    requires |b| == 3
    ensures Decode(Encode(b)) == Some(b)
  {
    var t := EncodeTriple(Standard, b[0], b[1], b[2]);
    assert Encode(b) == t + "" + "";
    assert t + "" + "" == t;
    DecodeQuantumOfTriple(b[0], b[1], b[2], true);
    assert b == [b[0], b[1], b[2]];
  }

  /** A full leading quantum decodes ahead of a non-empty rest. */
  lemma DecodeCons(t: string, rest: string, head: seq<byte>, tail: seq<byte>)
    requires |t| == 4 && rest != []
    requires DecodeQuantum(t, false) == Some(head)
    requires Decode(rest) == Some(tail)
    ensures Decode(t + rest) == Some(head + tail)
  {
    assert (t + rest)[..4] == t;
    assert (t + rest)[4..] == rest;
  }

  lemma FirstThreeThenRest(b: seq<byte>)
    requires 3 <= |b|
    ensures [b[0], b[1], b[2]] + b[3..] == b
  {
    assert b[..3] == [b[0], b[1], b[2]];
    assert b[..3] + b[3..] == b;
  }

  lemma DecodeEncodeStep(b: seq<byte>)
    requires 3 < |b|
    requires Decode(Encode(b[3..])) == Some(b[3..])
    ensures Decode(Encode(b)) == Some(b)
  {
    var head := [b[0], b[1], b[2]];
    assert Decode(Encode(b)) == Some(head + b[3..]) by {
      var rest := Encode(b[3..]);
      assert |rest| == 4 * ((|b| - 1) / 3);
      EncodeSplits(b);
      DecodeQuantumOfTriple(b[0], b[1], b[2], false);
      DecodeCons(EncodeTriple(Standard, b[0], b[1], b[2]), rest, head, b[3..]);
    }
    FirstThreeThenRest(b);
  }

  /** Decoding inverts encoding, for every octet sequence. */
  lemma {:induction false} DecodeEncode(b: seq<byte>)
    ensures Decode(Encode(b)) == Some(b)
    decreases |b|
  {
    if |b| == 0 {
    } else if |b| < 3 {
      DecodeQuantumOfTail(b);
    } else if |b| == 3 {
      DecodeEncodeTriple(b);
    } else {
      DecodeEncode(b[3..]);
      DecodeEncodeStep(b);
    }
  }
}

=== FILE: basics.dfy ===
/** Small shared vocabulary: nullable values, octets and the JVM's signed 64-bit integer. */
module Basics {

  /** A value that may be absent; stands for a nullable reference on the JVM. */
  datatype Option<+T> = None | Some(value: T)

  /** An octet, as carried in byte arrays and protobuf `bytes` fields. */
  newtype byte = x: int | 0 <= x < 256

  /** A JVM `Long`: signed, two's complement, 64 bits wide. */
  type Long = x: int | -0x8000_0000_0000_0000 <= x < 0x8000_0000_0000_0000

  /** Kotlin's `isNullOrEmpty` on a nullable string. */
  predicate IsNullOrEmpty(s: Option<string>) {
    s.None? || |s.value| == 0
  }
}

=== FILE: confirmations.dfy ===
/**
 * The order in which a session prefers to handle the guard confirmations the
 * service allows: a stable sort by position in a fixed preference list.
 */
module Confirmations {
  import opened Protocol

  /** `Int.MAX_VALUE`, the rank of a type missing from the preference list. */
  const IntMax: int := 0x7FFF_FFFF

  /** The preference list, most preferred first. */
  const Preference: seq<GuardType> :=
    [None, DeviceConfirmation, DeviceCode, EmailCode, EmailConfirmation, MachineToken, Unknown]

  /** The sort key: the position of `t` in `Preference`, or `IntMax` when it is absent. */
  function Rank(t: GuardType): (r: int)
    ensures t in Preference ==> 0 <= r < |Preference| && Preference[r] == t
    ensures t !in Preference ==> r == IntMax
  {
    match t
    case None => 0
    case DeviceConfirmation => 1
    case DeviceCode => 2
    case EmailCode => 3
    case EmailConfirmation => 4
    case MachineToken => 5
    case Unknown => 6
    case Other(_) => IntMax
  }

  /** Two types share a rank only when they are equal or both missing from the list. */
  lemma RankSeparatesListedTypes(t: GuardType, u: GuardType)
    requires t in Preference
    ensures Rank(t) == Rank(u) <==> t == u
  {
  }

  function Key(c: AllowedConfirmation): int {
    Rank(c.confirmationType)
  }

  /** Ascending by rank. */
  predicate Sorted(cs: seq<AllowedConfirmation>) {
    forall i, j :: 0 <= i < j < |cs| ==> Key(cs[i]) <= Key(cs[j])
  }

  /** The confirmations of `cs` whose rank is `k`, in their order in `cs`. */
  function WithKey(cs: seq<AllowedConfirmation>, k: int): (r: seq<AllowedConfirmation>)
    ensures |r| <= |cs|
  {
    if cs == [] then []
    else (if Key(cs[0]) == k then [cs[0]] else []) + WithKey(cs[1..], k)
  }

  /** A sequence that starts with `c` is sorted when its rest is, and `c` ranks no higher than any of it. */
  lemma SortedCons(c: AllowedConfirmation, cs: seq<AllowedConfirmation>)
    requires Sorted(cs)
    requires forall x :: x in cs ==> Key(c) <= Key(x)
    ensures Sorted([c] + cs)
  {
    var r := [c] + cs;
    forall i, j | 0 <= i < j < |r|
      ensures Key(r[i]) <= Key(r[j])
    {
      if i > 0 {
        assert r[i] == cs[i - 1] && r[j] == cs[j - 1];
      } else {
        assert r[j] in cs;
      }
    }
  }

  /** The tail of a sorted sequence is sorted. */
  lemma SortedTail(cs: seq<AllowedConfirmation>)
    requires Sorted(cs) && cs != []
    ensures Sorted(cs[1..])
  {
  }

  /** In a sorted sequence the head ranks no higher than any element, and the tail is sorted. */
  lemma SortedHead(cs: seq<AllowedConfirmation>)
    requires Sorted(cs) && cs != []
    ensures forall x :: x in cs ==> Key(cs[0]) <= Key(x)
    ensures forall x :: x in cs[1..] ==> Key(cs[0]) <= Key(x)
    ensures Sorted(cs[1..])
  {
    assert forall x :: x in cs[1..] ==> x in cs;
    forall x | x in cs
      ensures Key(cs[0]) <= Key(x)
    {
      var j :| 0 <= j < |cs| && cs[j] == x;
      if j > 0 {
        assert Key(cs[0]) <= Key(cs[j]);
      }
    }
  }

  /** Putting `h`, which ranks no higher than anything, in front of `c`'s insertion into `tail`. */
  lemma InsertBehindHead(h: AllowedConfirmation, tail: seq<AllowedConfirmation>, rest: seq<AllowedConfirmation>,
                         c: AllowedConfirmation)
    requires Sorted(rest)
    requires multiset(rest) == multiset(tail) + multiset{c}
    requires forall x :: x in rest <==> x == c || x in tail
    requires forall x :: x in tail ==> Key(h) <= Key(x)
    requires Key(h) <= Key(c)
    ensures Sorted([h] + rest)
    ensures multiset([h] + rest) == multiset([h] + tail) + multiset{c}
    ensures forall x :: x in [h] + rest <==> x == c || x in [h] + tail
  {
    SortedCons(h, rest);
  }

  /**
   * Places `c` before the first element of equal or higher rank, so after every
   * element of lower rank and ahead of every element of its own rank; since the
   * sort inserts the head in front of the sorted tail, this keeps equal ranks in
   * input order.
   */
  function Insert(c: AllowedConfirmation, cs: seq<AllowedConfirmation>): (r: seq<AllowedConfirmation>)
    requires Sorted(cs)
    ensures Sorted(r)
    ensures multiset(r) == multiset(cs) + multiset{c}
    ensures forall x :: x in r <==> x == c || x in cs
  {
    if cs == [] then
      SortedCons(c, cs);
      [c]
    else if Key(c) <= Key(cs[0]) then
      SortedHead(cs);
      SortedCons(c, cs);
      [c] + cs
    else
      SortedHead(cs);
      var rest := Insert(c, cs[1..]);
      InsertBehindHead(cs[0], cs[1..], rest, c);
      assert [cs[0]] + cs[1..] == cs;
      [cs[0]] + rest
  }

  /**
   * `sortConfirmations`: the allowed confirmations ordered by preference. Equal
   * ranks keep their input order (`sortedBy` is stable).
   */
  function SortConfirmations(cs: seq<AllowedConfirmation>): (r: seq<AllowedConfirmation>)
    ensures Sorted(r)
    ensures multiset(r) == multiset(cs)
    ensures |r| == |cs|
  {
    if cs == [] then []
    else
      assert cs == [cs[0]] + cs[1..];
      Insert(cs[0], SortConfirmations(cs[1..]))
  }

  /** The filter on a sequence with a known head. */
  lemma WithKeyCons(x: AllowedConfirmation, xs: seq<AllowedConfirmation>, k: int)
    ensures WithKey([x] + xs, k) == (if Key(x) == k then [x] else []) + WithKey(xs, k)
  {
    assert ([x] + xs)[1..] == xs;
  }

  /** Putting a lower-ranked `x` in front of both sides keeps the filter relation of `c`'s insertion. */
  lemma WithKeyBehindHead(x: AllowedConfirmation, rest: seq<AllowedConfirmation>, tail: seq<AllowedConfirmation>,
                          c: AllowedConfirmation, k: int)
    requires Key(x) < Key(c)
    requires WithKey(rest, k) == (if Key(c) == k then [c] else []) + WithKey(tail, k)
    ensures WithKey([x] + rest, k) == (if Key(c) == k then [c] else []) + WithKey([x] + tail, k)
  {
    WithKeyCons(x, rest, k);
    WithKeyCons(x, tail, k);
  }

  /** Inserting `c` puts it in front of every confirmation of equal rank. */
  lemma {:induction false} InsertWithKey(c: AllowedConfirmation, cs: seq<AllowedConfirmation>, k: int)
    requires Sorted(cs)
    ensures WithKey(Insert(c, cs), k) == (if Key(c) == k then [c] else []) + WithKey(cs, k)
    decreases |cs|
  {
    if cs == [] || Key(c) <= Key(cs[0]) {
      WithKeyCons(c, cs, k);
    } else {
      SortedTail(cs);
      InsertWithKey(c, cs[1..], k);
      assert cs == [cs[0]] + cs[1..];
      WithKeyBehindHead(cs[0], Insert(c, cs[1..]), cs[1..], c, k);
    }
  }

  /**
   * Stability: for every rank, the confirmations of that rank appear in the
   * sorted list in the order they had in the input.
   */
  lemma {:induction false} SortIsStable(cs: seq<AllowedConfirmation>, k: int)
    ensures WithKey(SortConfirmations(cs), k) == WithKey(cs, k)
    decreases |cs|
  {
    if cs != [] {
      SortIsStable(cs[1..], k);
      InsertWithKey(cs[0], SortConfirmations(cs[1..]), k);
    }
  }

  /** A list already in preference order is left as it is. */
  lemma {:induction false} SortKeepsSortedList(cs: seq<AllowedConfirmation>)
    requires Sorted(cs)
    ensures SortConfirmations(cs) == cs
    decreases |cs|
  {
    if cs != [] {
      assert Sorted(cs[1..]);
      SortKeepsSortedList(cs[1..]);
      assert cs == [cs[0]] + cs[1..];
    }
  }

  /** Sorting twice gives the same order as sorting once. */
  lemma SortIsIdempotent(cs: seq<AllowedConfirmation>)
    ensures SortConfirmations(SortConfirmations(cs)) == SortConfirmations(cs)
  {
    SortKeepsSortedList(SortConfirmations(cs));
  }

  /** The head of a sorted list ranks no higher than any element of the input. */
  lemma SortedHeadIsMinimal(cs: seq<AllowedConfirmation>)
    requires cs != []
    ensures SortConfirmations(cs)[0] in cs
    ensures forall x :: x in cs ==> Key(SortConfirmations(cs)[0]) <= Key(x)
  {
    var r := SortConfirmations(cs);
    assert r[0] in multiset(r);
    forall x | x in cs
      ensures Key(r[0]) <= Key(x)
    {
      assert x in multiset(cs);
      var i :| 0 <= i < |r| && r[i] == x;
      if i > 0 {
        assert Key(r[0]) <= Key(r[i]);
      }
    }
  }

  /**
   * The preferred (first) confirmation depends only on the multiset of allowed
   * confirmations: its rank always, and its type whenever that type is listed.
   */
  lemma PreferredDependsOnlyOnMultiset(a: seq<AllowedConfirmation>, b: seq<AllowedConfirmation>)
    requires multiset(a) == multiset(b)
    requires a != []
    ensures b != []
    ensures Key(SortConfirmations(a)[0]) == Key(SortConfirmations(b)[0])
    ensures SortConfirmations(a)[0].confirmationType in Preference ==>
              SortConfirmations(a)[0].confirmationType == SortConfirmations(b)[0].confirmationType
  {
    assert a[0] in multiset(b);
    SortedHeadIsMinimal(a);
    SortedHeadIsMinimal(b);
    var x, y := SortConfirmations(a)[0], SortConfirmations(b)[0];
    assert x in multiset(b) && y in multiset(a);
    if x.confirmationType in Preference {
      RankSeparatesListedTypes(x.confirmationType, y.confirmationType);
    }
  }

  /** Types missing from the list tie at `IntMax`, so input order alone decides which of them comes first. */
  lemma OtherTypesCanTie()
    ensures var a := [AllowedConfirmation(Other(7), ""), AllowedConfirmation(Other(8), "")];
            var b := [AllowedConfirmation(Other(8), ""), AllowedConfirmation(Other(7), "")];
            && multiset(a) == multiset(b)
            && SortConfirmations(a)[0].confirmationType != SortConfirmations(b)[0].confirmationType
  {
    var a := [AllowedConfirmation(Other(7), ""), AllowedConfirmation(Other(8), "")];
    var b := [AllowedConfirmation(Other(8), ""), AllowedConfirmation(Other(7), "")];
    assert a[1..] == [a[1]];
    assert b[1..] == [b[1]];
    assert multiset(a) == multiset(b);
  }
}

=== FILE: currency.dfy ===
/**
 * `ECurrencyCode`: the currency constants with their numeric codes, and the
 * lookup from a code back to its constant. The table skips 33.
 */
module CurrencyCodes {
  import opened Basics

  /** The constants, in declaration order. */
  datatype ECurrencyCode =
    | Invalid
    | USD
    | GBP
    | EUR
    | CHF
    | RUB
    | PLN
    | BRL
    | JPY
    | NOK
    | IDR
    | MYR
    | PHP
    | SGD
    | THB
    | VND
    | KRW
    | TRY
    | UAH
    | MXN
    | CAD
    | AUD
    | NZD
    | CNY
    | INR
    | CLP
    | PEN
    | COP
    | ZAR
    | HKD
    | TWD
    | SAR
    | AED
    | ARS
    | ILS
    | BYN
    | KZT
    | KWD
    | QAR
    | CRC
    | UYU
    | Max

  /** `code()`: the number each constant is declared with. */
  function Code(c: ECurrencyCode): (r: int)
    ensures 0 <= r <= 42 && r != 33
  {
    match c
    case Invalid => 0
    case USD => 1
    case GBP => 2
    case EUR => 3
    case CHF => 4
    case RUB => 5
    case PLN => 6
    case BRL => 7
    case JPY => 8
    case NOK => 9
    case IDR => 10
    case MYR => 11
    case PHP => 12
    case SGD => 13
    case THB => 14
    case VND => 15
    case KRW => 16
    case TRY => 17
    case UAH => 18
    case MXN => 19
    case CAD => 20
    case AUD => 21
    case NZD => 22
    case CNY => 23
    case INR => 24
    case CLP => 25
    case PEN => 26
    case COP => 27
    case ZAR => 28
    case HKD => 29
    case TWD => 30
    case SAR => 31
    case AED => 32
    case ARS => 34
    case ILS => 35
    case BYN => 36
    case KZT => 37
    case KWD => 38
    case QAR => 39
    case CRC => 40
    case UYU => 41
    case Max => 42
  }

  /** `values()`: every constant, in declaration order. */
  const Values: seq<ECurrencyCode> :=
    [ Invalid, USD, GBP, EUR, CHF, RUB, PLN, BRL, JPY, NOK,
      IDR, MYR, PHP, SGD, THB, VND, KRW, TRY, UAH, MXN,
      CAD, AUD, NZD, CNY, INR, CLP, PEN, COP, ZAR, HKD,
      TWD, SAR, AED, ARS, ILS, BYN, KZT, KWD, QAR, CRC,
      UYU, Max ]

  /** The first constant of `cs` whose code is `code`, as `filter(...).findFirst()` finds it. */
  function FirstWithCode(cs: seq<ECurrencyCode>, code: int): (r: Option<ECurrencyCode>)
    ensures r.None? <==> forall i :: 0 <= i < |cs| ==> Code(cs[i]) != code
    ensures r.Some? ==>
              exists i :: 0 <= i < |cs| && cs[i] == r.value && Code(cs[i]) == code
                          && forall j :: 0 <= j < i ==> Code(cs[j]) != code
  {
    if cs == [] then None
    else if Code(cs[0]) == code then Some(cs[0])
    else
      var r := FirstWithCode(cs[1..], code);
      assert forall i :: 0 < i < |cs| ==> cs[i] == cs[1..][i - 1];
      r
  }

  /** `from(int)`: the constant with the given code, or `null` when there is none. */
  function From(code: int): (r: Option<ECurrencyCode>)
    ensures r.Some? ==> Code(r.value) == code && r.value in Values
    ensures r.None? <==> forall i :: 0 <= i < |Values| ==> Code(Values[i]) != code
  {
    FirstWithCode(Values, code)
  }

  /** The code of the constant at each declaration position: codes run 0..32, then 34..42. */
  lemma CodeAtPosition()
    ensures |Values| == 42
    ensures forall i :: 0 <= i < |Values| ==> Code(Values[i]) == if i < 33 then i else i + 1
  {
    forall i | 0 <= i < |Values|
      ensures Code(Values[i]) == if i < 33 then i else i + 1
    {
      CodeAt(i);
    }
  }

  /**
   * The code of the constant at position `i`. The 42 positions are handled in
   * six ranges (`CodeAt0To8` to `CodeAt37To42`) only to keep each proof
   * obligation small: a single case split over all of them is too large for the
   * solver.
   */
  lemma CodeAt(i: int)
    requires 0 <= i < |Values|
    ensures Code(Values[i]) == if i < 33 then i else i + 1
  {
    if i < 8 {
      CodeAt0To8(i);
    } else if i < 16 {
      CodeAt8To16(i);
    } else if i < 24 {
      CodeAt16To24(i);
    } else if i < 32 {
      CodeAt24To32(i);
    } else if i < 37 {
      CodeAt32To37(i);
    } else {
      CodeAt37To42(i);
    }
  }

  lemma CodeAt0To8(i: int)
    requires 0 <= i < 8
    ensures Code(Values[i]) == if i < 33 then i else i + 1
  {
    match i
    case 0 =>
    case 1 =>
    case 2 =>
    case 3 =>
    case 4 =>
    case 5 =>
    case 6 =>
    case 7 =>
  }

  lemma CodeAt8To16(i: int)
    requires 8 <= i < 16
    ensures Code(Values[i]) == if i < 33 then i else i + 1
  {
    match i
    case 8 =>
    case 9 =>
    case 10 =>
    case 11 =>
    case 12 =>
    case 13 =>
    case 14 =>
    case 15 =>
  }

  lemma CodeAt16To24(i: int)
    requires 16 <= i < 24
    ensures Code(Values[i]) == if i < 33 then i else i + 1
  {
    match i
    case 16 =>
    case 17 =>
    case 18 =>
    case 19 =>
    case 20 =>
    case 21 =>
    case 22 =>
    case 23 =>
  }

  lemma CodeAt24To32(i: int)
    requires 24 <= i < 32
    ensures Code(Values[i]) == if i < 33 then i else i + 1
  {
    match i
    case 24 =>
    case 25 =>
    case 26 =>
    case 27 =>
    case 28 =>
    case 29 =>
    case 30 =>
    case 31 =>
  }

  lemma CodeAt32To37(i: int)
    requires 32 <= i < 37
    ensures Code(Values[i]) == if i < 33 then i else i + 1
  {
    match i
    case 32 =>
    case 33 =>
    case 34 =>
    case 35 =>
    case 36 =>
  }

  lemma CodeAt37To42(i: int)
    requires 37 <= i < 42
    ensures Code(Values[i]) == if i < 33 then i else i + 1
  {
    match i
    case 37 =>
    case 38 =>
    case 39 =>
    case 40 =>
    case 41 =>
  }

  /** Declaration order is strictly increasing in code, from `Invalid` (0) to `Max` (42). */
  lemma DeclarationOrderIsIncreasing()
    ensures Values[0] == Invalid && Code(Invalid) == 0
    ensures Values[|Values| - 1] == Max && Code(Max) == 42
    ensures forall i, j :: 0 <= i < j < |Values| ==> Code(Values[i]) < Code(Values[j])
  {
    CodeAtPosition();
  }

  /** Every constant is listed by `values()`. */
  lemma EveryConstantIsListed(c: ECurrencyCode)
    ensures c in Values
  {
  }

  /** The position in `values()` of the constant with code `code`. */
  function PositionOf(code: int): (i: int)
    requires 0 <= code <= 42 && code != 33
    ensures 0 <= i < |Values| && Code(Values[i]) == code
  {
    var i := if code < 33 then code else code - 1;
    CodeAt(i);
    i
  }

  /** A constant sits at the position its code determines. */
  lemma ConstantIsAtItsPosition(c: ECurrencyCode)
    ensures Values[PositionOf(Code(c))] == c
  {
    EveryConstantIsListed(c);
    var k :| 0 <= k < |Values| && Values[k] == c;
    CodeAt(k);
    assert Code(c) == if k < 33 then k else k + 1;
    assert (if Code(c) < 33 then Code(c) else Code(c) - 1) == k;
  }

  /** No two constants share a code. */
  lemma CodesAreDistinct(c: ECurrencyCode, d: ECurrencyCode)
    requires Code(c) == Code(d)
    ensures c == d
  {
    ConstantIsAtItsPosition(c);
    ConstantIsAtItsPosition(d);
  }

  /** `from` inverts `code()`. */
  lemma FromCode(c: ECurrencyCode)
    ensures From(Code(c)) == Some(c)
  {
    EveryConstantIsListed(c);
    var i :| 0 <= i < |Values| && Values[i] == c;
    assert Code(Values[i]) == Code(c);
    var r := From(Code(c));
    CodesAreDistinct(r.value, c);
  }

  /** `from` answers `null` exactly for 33, negative codes and codes above 42. */
  lemma FromIsNullOutsideTable(code: int)
    ensures From(code).None? <==> code < 0 || code > 42 || code == 33
  {
    if 0 <= code <= 42 && code != 33 {
      var i := PositionOf(code);
    }
  }
}

=== FILE: jwt_payload.dfy ===
/**
 * The payload normalisation of the login sample's `parseJsonWebToken`: take
 * the second `.`-separated component of a compact JWS (section 7.1 of RFC 7515),
 * map its base64url characters to standard Base 64 ones, and pad it with `=` to
 * a whole number of 4-character quanta.
 */
module JwtPayload {
  import opened Basics
  import Base64

  const Separator := '.'

  /** Every piece of `s` between separators, empty pieces included. */
  function SplitAll(s: string, sep: char): (parts: seq<string>)
    ensures |parts| >= 1
    ensures forall i :: 0 <= i < |parts| ==> sep !in parts[i]
    decreases |s|
  {
    if s == [] then [[]]
    else
      var rest := SplitAll(s[1..], sep);
      if s[0] == sep then [[]] + rest
      else
        assert forall i :: 1 <= i < |rest| ==> sep !in rest[i];
        [[s[0]] + rest[0]] + rest[1..]
  }

  /** The pieces joined back with the separator between them. */
  function JoinWith(parts: seq<string>, sep: char): string
    requires |parts| >= 1
  {
    if |parts| == 1 then parts[0] else parts[0] + [sep] + JoinWith(parts[1..], sep)
  }

  /** Splitting loses nothing: joining the pieces gives the string back. */
  lemma {:induction false} JoinSplitAll(s: string, sep: char)
    ensures JoinWith(SplitAll(s, sep), sep) == s
    decreases |s|
  {
    if s != [] {
      var rest := SplitAll(s[1..], sep);
      JoinSplitAll(s[1..], sep);
      if s[0] == sep {
        assert ([[]] + rest)[1..] == rest;
      } else if |rest| == 1 {
      } else {
        var parts := [[s[0]] + rest[0]] + rest[1..];
        assert parts[1..] == rest[1..];
        assert JoinWith(rest, sep) == rest[0] + [sep] + JoinWith(rest[1..], sep);
      }
    }
    assert s == [] ==> SplitAll(s, sep) == [[]];
  }

  /** A piece with no separator, then a separator, then the rest. */
  lemma {:induction false} SplitAfterPiece(a: string, b: string, sep: char)
    requires sep !in a
    ensures SplitAll(a + [sep] + b, sep) == [a] + SplitAll(b, sep)
    decreases |a|
  {
    if a == [] {
      assert a + [sep] + b == [sep] + b;
      assert ([sep] + b)[1..] == b;
    } else {
      SplitAfterPiece(a[1..], b, sep);
      assert (a + [sep] + b)[1..] == a[1..] + [sep] + b;
      assert [a[0]] + a[1..] == a;
    }
  }

  lemma {:induction false} SplitOfPiece(a: string, sep: char)
    requires sep !in a
    ensures SplitAll(a, sep) == [a]
    decreases |a|
  {
    if a != [] {
      SplitOfPiece(a[1..], sep);
      assert [a[0]] + a[1..] == a;
    }
  }

  /** Trailing empty pieces removed, as `String.split` does. */
  function DropTrailingEmpty(parts: seq<string>): (r: seq<string>)
    ensures r <= parts
    ensures r != [] ==> r[|r| - 1] != []
    ensures forall i :: |r| <= i < |parts| ==> parts[i] == []
  {
    if parts != [] && parts[|parts| - 1] == [] then DropTrailingEmpty(parts[..|parts| - 1]) else parts
  }

  /**
   * `String.split` on a one-character pattern: a string without the separator
   * gives itself, otherwise the pieces without the trailing empty ones.
   */
  function JavaSplit(s: string, sep: char): (parts: seq<string>)
    ensures sep !in s ==> parts == [s]
    ensures parts <= SplitAll(s, sep)
    ensures forall i :: 0 <= i < |parts| ==> sep !in parts[i]
    ensures sep in s && parts != [] ==> parts[|parts| - 1] != []
    ensures forall i :: |parts| <= i < |SplitAll(s, sep)| ==> SplitAll(s, sep)[i] == []
  {
    if sep !in s then
      SplitOfPiece(s, sep);
      [s]
    else DropTrailingEmpty(SplitAll(s, sep))
  }

  /**
   * `tokenComponents[1]`; `None` where Java throws `ArrayIndexOutOfBoundsException`,
   * which is exactly when every piece after the first is empty.
   */
  function PayloadSegment(token: string): (r: Option<string>)
    ensures r.Some? <==> exists j :: 1 <= j < |SplitAll(token, Separator)| && SplitAll(token, Separator)[j] != []
    ensures r.Some? ==> r.value == SplitAll(token, Separator)[1] && Separator !in r.value
  {
    var parts := JavaSplit(token, Separator);
    var all := SplitAll(token, Separator);
    if |parts| > 1 then
      assert Separator in token;
      assert all[|parts| - 1] == parts[|parts| - 1] != [];
      Some(parts[1])
    else
      assert forall j :: 1 <= j < |all| ==> all[j] == [];
      None
  }

  /**
   * A compact JWS `header.payload.signature` yields its payload, also when the
   * signature is empty, as long as payload and signature are not both empty.
   */
  lemma PayloadOfCompactToken(header: string, payload: string, signature: string)
    requires Separator !in header && Separator !in payload && Separator !in signature
    requires payload != [] || signature != []
    ensures PayloadSegment(header + [Separator] + payload + [Separator] + signature) == Some(payload)
  {
    var token := header + [Separator] + payload + [Separator] + signature;
    assert SplitAll(token, Separator) == [header, payload, signature] by {
      assert token == header + [Separator] + (payload + [Separator] + signature);
      SplitAfterPiece(header, payload + [Separator] + signature, Separator);
      SplitAfterPiece(payload, signature, Separator);
      SplitOfPiece(signature, Separator);
    }
    var j := if payload != [] then 1 else 2;
    assert 1 <= j < 3 && [header, payload, signature][j] != [];
  }

  /** With payload and signature both empty, the trailing pieces vanish and the index is out of bounds. */
  lemma EmptyPayloadAndSignatureThrow(header: string)
    requires Separator !in header
    ensures PayloadSegment(header + [Separator, Separator]) == None
  {
    var token := header + [Separator, Separator];
    assert SplitAll(token, Separator) == [header, [], []] by {
      assert token == header + [Separator] + ([] + [Separator] + []);
      SplitAfterPiece(header, [] + [Separator] + [], Separator);
      SplitAfterPiece([], [], Separator);
    }
  }

  /** `String.replace(from, to)`: every `from` becomes `to`, other characters stay. */
  function Replace(s: string, from: char, to: char): (r: string)
    ensures |r| == |s|
    ensures forall i :: 0 <= i < |s| ==> r[i] == if s[i] == from then to else s[i]
  {
    if s == [] then [] else [if s[0] == from then to else s[0]] + Replace(s[1..], from, to)
  }

  /** The character the two replacements give for `c`. */
  function ToStandardChar(c: char): char {
    if c == '-' then '+' else if c == '_' then '/' else c
  }

  /** `replace('-', '+').replace('_', '/')`. */
  function ToStandardAlphabet(s: string): (r: string)
    ensures |r| == |s|
    ensures forall i :: 0 <= i < |s| ==> r[i] == ToStandardChar(s[i])
    ensures '-' !in r && '_' !in r
  {
    Replace(Replace(s, '-', '+'), '_', '/')
  }

  /** `=` repeated `n` times (`new String(new char[n]).replace('\0', '=')`). */
  function PadRun(n: nat): (r: string)
    ensures |r| == n
    ensures forall i :: 0 <= i < n ==> r[i] == Base64.PadChar
  {
    Replace(seq(n, _ => '\0'), '\0', Base64.PadChar)
  }

  /** Pads to a multiple of four characters, only when it is not one already. */
  function PadToQuantum(s: string): (r: string)
    ensures |r| % 4 == 0
    ensures s <= r
    ensures |r| - |s| <= 3
    ensures forall i :: |s| <= i < |r| ==> r[i] == Base64.PadChar
    ensures |s| % 4 == 0 ==> r == s
  {
    if |s| % 4 != 0 then s + PadRun(4 - |s| % 4) else s
  }

  /** The payload as handed to the Base 64 decoder. */
  function NormalisePayload(segment: string): (r: string)
    ensures |r| % 4 == 0
    ensures '-' !in r && '_' !in r
  {
    PadToQuantum(ToStandardAlphabet(segment))
  }

  /** Normalising twice changes nothing more. */
  lemma NormaliseIsIdempotent(segment: string)
    ensures NormalisePayload(NormalisePayload(segment)) == NormalisePayload(segment)
  {
    var r := NormalisePayload(segment);
    assert ToStandardAlphabet(r) == r;
  }

  /** The mapping takes each base64url symbol to the standard symbol of the same value. */
  lemma UrlSymbolToStandard(v: Base64.Sextet)
    ensures ToStandardChar(Base64.Symbol(Base64.UrlSafe, v)) == Base64.Symbol(Base64.Standard, v)
  {
  }

  /** `replace` works character by character, so it distributes over concatenation. */
  lemma {:induction false} ReplaceOfConcat(x: string, y: string, from: char, to: char)
    ensures Replace(x + y, from, to) == Replace(x, from, to) + Replace(y, from, to)
    decreases |x|
  {
    if x != [] {
      assert (x + y)[1..] == x[1..] + y;
      ReplaceOfConcat(x[1..], y, from, to);
    } else {
      assert x + y == y;
    }
  }

  lemma ToStandardOfConcat(x: string, y: string)
    ensures ToStandardAlphabet(x + y) == ToStandardAlphabet(x) + ToStandardAlphabet(y)
  {
    ReplaceOfConcat(x, y, '-', '+');
    ReplaceOfConcat(Replace(x, '-', '+'), Replace(y, '-', '+'), '_', '/');
  }

  /** The replacement maps a URL-safe symbol string to the standard symbols of the same values. */
  lemma ToStandardOfSymbols(u: string, vs: seq<Base64.Sextet>)
    requires |u| == |vs|
    requires forall i :: 0 <= i < |u| ==> u[i] == Base64.Symbol(Base64.UrlSafe, vs[i])
    ensures forall i :: 0 <= i < |u| ==> ToStandardAlphabet(u)[i] == Base64.Symbol(Base64.Standard, vs[i])
  {
    forall i | 0 <= i < |u|
      ensures ToStandardAlphabet(u)[i] == Base64.Symbol(Base64.Standard, vs[i])
    {
      UrlSymbolToStandard(vs[i]);
    }
  }

  lemma ToStandardOfTriple(b0: byte, b1: byte, b2: byte)
    ensures ToStandardAlphabet(Base64.EncodeTriple(Base64.UrlSafe, b0, b1, b2))
            == Base64.EncodeTriple(Base64.Standard, b0, b1, b2)
  {
    var vs: seq<Base64.Sextet> := [b0 as int / 4, (b0 as int % 4) * 16 + b1 as int / 16,
                                   (b1 as int % 16) * 4 + b2 as int / 64, b2 as int % 64];
    ToStandardOfSymbols(Base64.EncodeTriple(Base64.UrlSafe, b0, b1, b2), vs);
  }

  lemma ToStandardOfTail(b: seq<byte>)
    requires 1 <= |b| <= 2
    ensures ToStandardAlphabet(Base64.EncodeTail(Base64.UrlSafe, b)) == Base64.EncodeTail(Base64.Standard, b)
  {
    var vs: seq<Base64.Sextet> :=
      if |b| == 1 then [b[0] as int / 4, (b[0] as int % 4) * 16]
      else [b[0] as int / 4, (b[0] as int % 4) * 16 + b[1] as int / 16, (b[1] as int % 16) * 4];
    ToStandardOfSymbols(Base64.EncodeTail(Base64.UrlSafe, b), vs);
  }

  lemma {:induction false} ToStandardOfUrlEncoding(b: seq<byte>)
    ensures ToStandardAlphabet(Base64.EncodeUnpadded(Base64.UrlSafe, b)) == Base64.EncodeUnpadded(Base64.Standard, b)
    decreases |b|
  {
    if 3 <= |b| {
      ToStandardOfUrlEncoding(b[3..]);
      ToStandardOfTriple(b[0], b[1], b[2]);
      ToStandardOfConcat(Base64.EncodeTriple(Base64.UrlSafe, b[0], b[1], b[2]),
                         Base64.EncodeUnpadded(Base64.UrlSafe, b[3..]));
    } else if 1 <= |b| {
      ToStandardOfTail(b);
    }
  }

  /** The unpadded encoding of `n` octets is `Padding(n)` characters short of a whole quantum. */
  lemma UnpaddedShortfall(n: nat)
    ensures Base64.UnpaddedLength(n) % 4 == (4 - |Base64.Padding(n)|) % 4
  {
    var q := n / 3;
    assert n == 3 * q + n % 3;
    assert Base64.UnpaddedLength(n) == 4 * q + (if n % 3 == 0 then 0 else n % 3 + 1);
  }

  /** Padding appends exactly the pad characters a string is short of. */
  lemma PadAppendsShortfall(t: string, p: string)
    requires |p| <= 3 && |t| % 4 == (4 - |p|) % 4
    requires forall i :: 0 <= i < |p| ==> p[i] == Base64.PadChar
    ensures PadToQuantum(t) == t + p
  {
    if |t| % 4 != 0 {
      var run := PadRun(4 - |t| % 4);
      assert |run| == |p|;
      assert run == p;
    } else {
      assert p == [];
      assert t + p == t;
    }
  }

  lemma PadCompletesUnpadded(b: seq<byte>)
    ensures PadToQuantum(Base64.EncodeUnpadded(Base64.Standard, b)) ==
            Base64.EncodeUnpadded(Base64.Standard, b) + Base64.Padding(|b|)
  {
    UnpaddedShortfall(|b|);
    PadAppendsShortfall(Base64.EncodeUnpadded(Base64.Standard, b), Base64.Padding(|b|));
  }

  /**
   * For a payload produced by base64url-encoding octets, normalising gives
   * exactly the standard padded encoding of those octets, so the decoder
   * recovers them.
   */
  lemma NormalisedUrlEncodingIsStandard(b: seq<byte>)
    ensures NormalisePayload(Base64.EncodeUrl(b)) == Base64.Encode(b)
    ensures Base64.Decode(NormalisePayload(Base64.EncodeUrl(b))) == Some(b)
  {
    ToStandardOfUrlEncoding(b);
    PadCompletesUnpadded(b);
    Base64.DecodeEncode(b);
  }
}

=== FILE: protocol.dfy ===
/**
 * The values exchanged with the remote authentication service: result codes,
 * guard (second factor) types, and the fields of the requests and responses the
 * core reads or writes. Only the fields the core touches are modelled.
 */
module Protocol {
  import opened Basics

  /**
   * Service result codes. The core names six of them; every other code is
   * `Unlisted`, which is never equal to a named one. An `Unlisted(n)` must not
   * carry the number of a named code: the model would treat the two as different.
   */
  datatype EResult =
    | OK
    | Fail
    | FileNotFound
    | Expired
    | InvalidLoginAuthCode
    | TwoFactorCodeMismatch
    | Unlisted(code: int)

  /**
   * `EAuthSessionGuardType`. The seven named values are the ones the core's
   * preference list mentions; any other value of the protobuf enum is `Other`.
   * An `Other(n)` must not carry the number of a named type: the model would
   * treat the two as different.
   */
  datatype GuardType =
    | None
    | EmailCode
    | DeviceCode
    | DeviceConfirmation
    | EmailConfirmation
    | MachineToken
    | Unknown
    | Other(value: int)

  /** `CAuthentication_AllowedConfirmation`. */
  datatype AllowedConfirmation = AllowedConfirmation(confirmationType: GuardType, associatedMessage: string)

  /** Answer to a poll (`CAuthentication_PollAuthSessionStatus_Response` and its result code). */
  datatype PollResponse = PollResponse(
    result: EResult,
    newClientId: Long,
    refreshToken: string,
    accessToken: string,
    accountName: string,
    newGuardData: string)

  /** What a poll carries: the session's current client id and its request id. */
  datatype PollRequest = PollRequest(clientId: Long, requestId: seq<byte>)

  /** The tokens handed back once a poll completes the login. */
  datatype AuthPollResult = AuthPollResult(
    accessToken: string,
    refreshToken: string,
    accountName: string,
    newGuardData: string)
}

=== FILE: steam_authentication.dfy ===
/**
 * The operations that start a login: the password-key lookup, the two
 * session-begin requests, the app access-token request, and the password's
 * wire encoding. Each RPC answer is an oracle value; the RSA cipher and the
 * UTF-8 encoder are oracle functions.
 */
module SteamAuthentication {
  import opened Protocol
  import opened AuthSessions
  import Basics
  import Base64

  /** What the caller supplies to begin a session (`AuthSessionDetails`); null strings are `None`. */
  datatype AuthSessionDetails = AuthSessionDetails(
    username: Basics.Option<string>,
    password: Basics.Option<string>,
    deviceFriendlyName: string,
    platformType: int,
    clientOSType: int,
    websiteId: string,
    persistentSession: bool,
    guardData: Basics.Option<string>,
    hasAuthenticator: bool)

  datatype SessionPersistence = Ephemeral | Persistent

  datatype TokenRenewalType = Allow

  datatype DeviceDetails = DeviceDetails(deviceFriendlyName: string, platformType: int, osType: int)

  datatype KeyResponse = KeyResponse(result: EResult, publickeyMod: string, publickeyExp: string, timestamp: int)

  datatype CredentialsRequest = CredentialsRequest(
    accountName: string,
    deviceDetails: DeviceDetails,
    encryptedPassword: string,
    encryptionTimestamp: int,
    persistence: SessionPersistence,
    websiteId: string,
    guardData: Basics.Option<string>)

  datatype QrRequest = QrRequest(websiteId: string, deviceDetails: DeviceDetails)

  /** Answer to either begin request; `challengeUrl` is read only for a QR session. */
  datatype BeginResponse = BeginResponse(
    result: EResult,
    clientId: Basics.Long,
    requestId: seq<Basics.byte>,
    allowedConfirmations: seq<AllowedConfirmation>,
    interval: real,
    challengeUrl: string)

  /** `renewalType` is `None` when the request leaves the field unset. */
  datatype TokenRequest = TokenRequest(refreshToken: string, steamId: int, renewalType: Basics.Option<TokenRenewalType>)

  datatype TokenResponse = TokenResponse(result: EResult, accessToken: string, refreshToken: string)

  /** Wraps the body of a successful token answer. */
  datatype AccessTokenGenerateResult = AccessTokenGenerateResult(accessToken: string, refreshToken: string)

  /** An RPC the operation issued. */
  datatype Rpc =
    | GetPasswordRSAPublicKey(accountName: string)
    | BeginViaCredentials(credentials: CredentialsRequest)
    | BeginViaQr(qr: QrRequest)
    | GenerateAccessTokenForApp(token: TokenRequest)

  /**
   * The kind of exception a failure surfaces as. `EncryptionError` stands for
   * whatever building the key or running the cipher throws (a malformed hex
   * string, or a JCA security exception); the source does not wrap it.
   */
  datatype ExceptionClass = IllegalArgumentException | AuthenticationException | EncryptionError

  /** Why an operation failed, before the exception class it surfaces as. */
  datatype CallFailure =
    | MissingCredentials
    | NotConnected
    | PublicKeyFetchFailed(result: EResult)
    | EncryptionFailed
    | QrBeginFailed(result: EResult)
    | CredentialsBeginFailed(result: EResult)
    | TokenGenerationFailed(result: EResult)

  /** The exception type each failure is thrown as. */
  function ClassOf(f: CallFailure): ExceptionClass {
    match f
    case MissingCredentials => IllegalArgumentException
    case NotConnected => IllegalArgumentException
    case TokenGenerationFailed(_) => IllegalArgumentException
    case EncryptionFailed => EncryptionError
    case _ => AuthenticationException
  }

  datatype CallOutcome<T> = Success(value: T) | Failure(failure: CallFailure)

  /** The RPCs an operation issued, in order, and how it ended. */
  datatype Call<T> = Call(rpcs: seq<Rpc>, outcome: CallOutcome<T>)

  /**
   * The foreign pieces of the password pipeline: the UTF-8 encoder, and RSA with
   * PKCS#1 v1.5 padding under the key given by hex modulus and exponent
   * (`None` when the key cannot be built or the cipher throws).
   */
  datatype Crypto = Crypto(
    utf8: string -> seq<Basics.byte>,
    rsa: (string, string, seq<Basics.byte>) -> Basics.Option<seq<Basics.byte>>)

  // ---------------------------------------------------------------------------
  // Password encoding
  // ---------------------------------------------------------------------------

  /** Kotlin's `dropLast(1)`: the last character removed, if there is one. */
  function DropLast(s: string): (r: string)
    ensures r <= s
    ensures |r| == if s == [] then 0 else |s| - 1
  {
    if s == [] then s else s[..|s| - 1]
  }

  /** The ciphertext's standard Base 64 with its last character dropped, as sent to the service. */
  function EncodePassword(ciphertext: seq<Basics.byte>): (r: string)
    ensures r <= Base64.Encode(ciphertext)
    ensures |r| == if ciphertext == [] then 0 else |Base64.Encode(ciphertext)| - 1
  {
    DropLast(Base64.Encode(ciphertext))
  }

  lemma EncodingEndsWithPadding(ciphertext: seq<Basics.byte>)
    requires |ciphertext| % 3 != 0
    ensures var full := Base64.Encode(ciphertext);
            full[|full| - 1] == Base64.PadChar
  {
    var u := Base64.EncodeUnpadded(Base64.Standard, ciphertext);
    var p := Base64.Padding(|ciphertext|);
    assert Base64.Encode(ciphertext) == u + p;
    assert (u + p)[|u + p| - 1] == p[|p| - 1];
  }

  /**
   * When the ciphertext is not a whole number of 3-octet groups, exactly one
   * pad character was dropped: putting it back gives the full encoding, which
   * decodes to the ciphertext.
   */
  lemma PadRestoresPassword(ciphertext: seq<Basics.byte>)
    requires |ciphertext| % 3 != 0
    ensures EncodePassword(ciphertext) + [Base64.PadChar] == Base64.Encode(ciphertext)
    ensures Base64.Decode(EncodePassword(ciphertext) + [Base64.PadChar]) == Basics.Some(ciphertext)
  {
    var full := Base64.Encode(ciphertext);
    EncodingEndsWithPadding(ciphertext);
    assert full == full[..|full| - 1] + [full[|full| - 1]];
    Base64.DecodeEncode(ciphertext);
  }

  /**
   * A 2048-bit key gives a 256-octet ciphertext, whose encoding ends in two pad
   * characters: one of them is still there after the drop.
   */
  lemma RsaTwoKiloBitPasswordKeepsOnePad(ciphertext: seq<Basics.byte>)
    requires |ciphertext| == 256
    ensures |EncodePassword(ciphertext)| == 343
    ensures EncodePassword(ciphertext)[342] == Base64.PadChar
  {
    var u := Base64.EncodeUnpadded(Base64.Standard, ciphertext);
    var full := Base64.Encode(ciphertext);
    assert full == u + "==";
    assert full[342] == Base64.PadChar;
  }

  /**
   * When the ciphertext is a whole number of 3-octet groups, the drop removes a
   * data symbol, not a pad character.
   */
  lemma WholeGroupsLoseASymbol(ciphertext: seq<Basics.byte>)
    requires |ciphertext| % 3 == 0 && ciphertext != []
    ensures var full := Base64.Encode(ciphertext);
            Base64.IsSymbol(Base64.Standard, full[|full| - 1])
            && EncodePassword(ciphertext) + [Base64.PadChar] != full
  {
    var u := Base64.EncodeUnpadded(Base64.Standard, ciphertext);
    var full := Base64.Encode(ciphertext);
    assert full == u + "";
    Base64.UnpaddedUsesAlphabet(Base64.Standard, ciphertext);
    Base64.PadIsNotSymbol(Base64.Standard);
    assert full[|full| - 1] == u[|u| - 1];
    assert (EncodePassword(ciphertext) + [Base64.PadChar])[|full| - 1] == Base64.PadChar;
  }

  // ---------------------------------------------------------------------------
  // Requests
  // ---------------------------------------------------------------------------

  function DeviceDetailsOf(d: AuthSessionDetails): DeviceDetails {
    DeviceDetails(d.deviceFriendlyName, d.platformType, d.clientOSType)
  }

  /** `getPasswordRSAPublicKey`. */
  function GetPasswordRSAPublicKeyCall(accountName: string, response: KeyResponse): (r: Call<KeyResponse>)
    ensures r.rpcs == [GetPasswordRSAPublicKey(accountName)]
    ensures response.result == OK <==> r.outcome == Success(response)
    ensures response.result != OK <==> r.outcome == Failure(PublicKeyFetchFailed(response.result))
  {
    Call([GetPasswordRSAPublicKey(accountName)],
         if response.result != OK then Failure(PublicKeyFetchFailed(response.result)) else Success(response))
  }

  /** `generateAccessTokenForApp`. */
  function GenerateAccessTokenForAppCall(steamId: int, refreshToken: string, allowRenewal: bool, response: TokenResponse)
    : (r: Call<AccessTokenGenerateResult>)
    ensures |r.rpcs| == 1 && r.rpcs[0].GenerateAccessTokenForApp?
    ensures r.rpcs[0].token.refreshToken == refreshToken && r.rpcs[0].token.steamId == steamId
    ensures r.rpcs[0].token.renewalType.Some? <==> allowRenewal
    ensures r.rpcs[0].token.renewalType.Some? ==> r.rpcs[0].token.renewalType.value == Allow
    ensures response.result != OK <==> r.outcome.Failure?
    ensures r.outcome.Failure? ==>
              r.outcome.failure == TokenGenerationFailed(response.result)
              && ClassOf(r.outcome.failure) == IllegalArgumentException
    ensures r.outcome.Success? ==> r.outcome.value.accessToken == response.accessToken
    ensures r.outcome.Success? ==> r.outcome.value.refreshToken == response.refreshToken
  {
    var request := TokenRequest(refreshToken, steamId, if allowRenewal then Basics.Some(Allow) else Basics.None);
    Call([GenerateAccessTokenForApp(request)],
         if response.result != OK then Failure(TokenGenerationFailed(response.result))
         else Success(AccessTokenGenerateResult(response.accessToken, response.refreshToken)))
  }

  /** `beginAuthSessionViaQR`. */
  function BeginAuthSessionViaQr(d: AuthSessionDetails, connected: bool, response: BeginResponse): (r: Call<AuthSession>)
    ensures !connected <==> r == Call([], Failure(NotConnected))
    ensures connected ==> r.rpcs == [BeginViaQr(QrRequest(d.websiteId, DeviceDetailsOf(d)))]
    ensures connected && response.result != OK ==> r.outcome == Failure(QrBeginFailed(response.result))
    ensures connected && response.result == OK ==> r.outcome.Success?
    ensures r.outcome.Failure? ==> ClassOf(r.outcome.failure) != EncryptionError
    ensures r.outcome.Success? ==>
              var s := r.outcome.value;
              && connected && response.result == OK
              && s.kind == Qr(response.challengeUrl) && s.hasAuthenticator == d.hasAuthenticator
              && s.clientId == response.clientId && s.requestId == response.requestId
              && Valid(s) && multiset(s.allowedConfirmations) == multiset(response.allowedConfirmations)
    ensures r.outcome.Success? ==>
              r.outcome.value == NewSession(Qr(response.challengeUrl), d.hasAuthenticator, response.clientId,
                                            response.requestId, response.allowedConfirmations, response.interval)
  {
    if !connected then Call([], Failure(NotConnected))
    else
      var request := QrRequest(d.websiteId, DeviceDetailsOf(d));
      Call([BeginViaQr(request)],
           if response.result != OK then Failure(QrBeginFailed(response.result))
           else Success(NewSession(Qr(response.challengeUrl), d.hasAuthenticator, response.clientId,
                                   response.requestId, response.allowedConfirmations, response.interval)))
  }

  /** The request built once the password is encrypted (lines 178-202). */
  function CredentialsRequestOf(d: AuthSessionDetails, key: KeyResponse, encryptedPassword: string): (q: CredentialsRequest)
    requires d.username.Some?
    ensures q.persistence == Persistent <==> d.persistentSession
    ensures q.guardData.Some? <==> !Basics.IsNullOrEmpty(d.guardData)
    ensures q.guardData.Some? ==> q.guardData == d.guardData
  {
    CredentialsRequest(
      d.username.value,
      DeviceDetailsOf(d),
      encryptedPassword,
      key.timestamp,
      if d.persistentSession then Persistent else Ephemeral,
      d.websiteId,
      if Basics.IsNullOrEmpty(d.guardData) then Basics.None else d.guardData)
  }

  /** `beginAuthSessionViaCredentials`. */
  function BeginAuthSessionViaCredentials(
    d: AuthSessionDetails, connected: bool, key: KeyResponse, crypto: Crypto, response: BeginResponse)
    : (r: Call<AuthSession>)
    ensures Basics.IsNullOrEmpty(d.username) || Basics.IsNullOrEmpty(d.password) <==>
            r == Call([], Failure(MissingCredentials))
    ensures !Basics.IsNullOrEmpty(d.username) && !Basics.IsNullOrEmpty(d.password) && !connected ==>
            r == Call([], Failure(NotConnected))
    ensures r.rpcs != [] ==>
              && connected && d.username.Some? && d.password.Some?
              && r.rpcs[0] == GetPasswordRSAPublicKey(d.username.value)
    ensures !Basics.IsNullOrEmpty(d.username) && !Basics.IsNullOrEmpty(d.password) && connected ==>
              r.rpcs != [] && r.rpcs[0] == GetPasswordRSAPublicKey(d.username.value)
    ensures r.rpcs != [] && key.result != OK ==>
              r == Call([GetPasswordRSAPublicKey(d.username.value)], Failure(PublicKeyFetchFailed(key.result)))
    ensures r.rpcs != [] && key.result == OK ==>
              (|r.rpcs| == 2 <==> crypto.rsa(key.publickeyMod, key.publickeyExp, crypto.utf8(d.password.value)).Some?)
    ensures |r.rpcs| <= 2
    ensures |r.rpcs| == 2 ==>
              && key.result == OK
              && r.rpcs[1].BeginViaCredentials?
              && var q := r.rpcs[1].credentials;
              && q.accountName == d.username.value
              && q.encryptionTimestamp == key.timestamp
              && q.websiteId == d.websiteId
              && q.deviceDetails == DeviceDetailsOf(d)
              && (q.persistence == Persistent <==> d.persistentSession)
              && (q.guardData.Some? <==> !Basics.IsNullOrEmpty(d.guardData))
              && (q.guardData.Some? ==> q.guardData == d.guardData)
              && crypto.rsa(key.publickeyMod, key.publickeyExp, crypto.utf8(d.password.value)).Some?
              && q.encryptedPassword ==
                   EncodePassword(crypto.rsa(key.publickeyMod, key.publickeyExp, crypto.utf8(d.password.value)).value)
    ensures |r.rpcs| == 1 ==> r.outcome.Failure? && r.outcome.failure in {PublicKeyFetchFailed(key.result), EncryptionFailed}
    ensures r.rpcs != [] && key.result == OK
            && crypto.rsa(key.publickeyMod, key.publickeyExp, crypto.utf8(d.password.value)).None? ==>
              r == Call([GetPasswordRSAPublicKey(d.username.value)], Failure(EncryptionFailed))
    ensures |r.rpcs| == 2 && response.result != OK ==> r.outcome == Failure(CredentialsBeginFailed(response.result))
    ensures |r.rpcs| == 2 && response.result == OK ==> r.outcome.Success?
    ensures r.outcome.Success? ==>
              var s := r.outcome.value;
              && |r.rpcs| == 2 && response.result == OK
              && s.kind == Credentials && s.hasAuthenticator == d.hasAuthenticator
              && s.clientId == response.clientId && s.requestId == response.requestId
              && Valid(s) && multiset(s.allowedConfirmations) == multiset(response.allowedConfirmations)
    ensures r.outcome.Success? ==>
              r.outcome.value == NewSession(Credentials, d.hasAuthenticator, response.clientId,
                                            response.requestId, response.allowedConfirmations, response.interval)
  {
    if Basics.IsNullOrEmpty(d.username) || Basics.IsNullOrEmpty(d.password) then
      Call([], Failure(MissingCredentials))
    else if !connected then
      Call([], Failure(NotConnected))
    else
      var keyCall := GetPasswordRSAPublicKeyCall(d.username.value, key);
      if keyCall.outcome.Failure? then
        Call(keyCall.rpcs, Failure(keyCall.outcome.failure))
      else
        match crypto.rsa(key.publickeyMod, key.publickeyExp, crypto.utf8(d.password.value))
        case None => Call(keyCall.rpcs, Failure(EncryptionFailed))
        case Some(ciphertext) =>
          var request := CredentialsRequestOf(d, key, EncodePassword(ciphertext));
          Call(keyCall.rpcs + [BeginViaCredentials(request)],
               if response.result != OK then Failure(CredentialsBeginFailed(response.result))
               else Success(NewSession(Credentials, d.hasAuthenticator, response.clientId,
                                       response.requestId, response.allowedConfirmations, response.interval)))
  }
}
